=== FILE: README.md ===
# Invoicing core of next-invoice-gen, in Dafny

This project models the domain rules of a small invoicing application for
independent service providers, with the database, router and notification
calls removed. What remains is a set of pure functions. Each is stated and
proved in Dafny.

- **References** (`References`): invoice (`F-000067`) and client
  (`C-000001`) references are built from the last sequence number. Parsing
  them back uses an unanchored `<prefix>-(\d+)` search.
- **Status engine** (`InvoiceStatus`): `isOverdue` and
  `calculateInvoiceStatus`. Dates are whole day numbers and "today" is a
  parameter.
- **Invoice form** (`LineItems`, `InvoiceSubmit`): editing, adding and
  removing line items; the HT sum; the TTC and VAT derivation; the checks
  run on submit; the version bump; the rows written on save, numbered by
  position.
- **Document renderers** (`Documents`, `Sections`, `InvoicePdf`,
  `InvoicePreview`, `RenderAgreement`): the exported PDF page and the
  on-screen preview, each as a sequence of labelled lines grouped into
  sections. `RenderAgreement` proves which sections the two share and where
  they differ. Only the PDF regroups the sender address two parts per line.
  Only the PDF prints the legal disclaimer. The "Prestation de service" line
  sits in a different place in each.
- **Status menu** (`StatusToggle`): which buttons an invoice page offers,
  and the success message.
- **Client list** (`ClientList`): the case-insensitive search filter, the
  list after a delete, and the empty-state message.

`Strings` holds the parts of JavaScript's `trim`, `split`, `join`,
`toLowerCase` and `includes` that these rules use. `Wrappers` holds `Option`.

Money is an exact `real`. The application never rounds stored amounts:
`total_ht` is the raw product of price and quantity, and rounding to cents
happens only when a value is displayed (invoice-form.tsx:477 and :535).
The preview and the PDF are meant to show the same invoice, but they do not
render identically; `RenderAgreement` states where they agree and where they
differ. For the heading, client, item table, totals, VAT note, banking and
notes sections the two components use the same conditions and the same
labels, so the model defines each of those sections once (`Sections`) and
both renderers use that definition: their agreement on those sections holds
by that shared definition.

## Model

| member | source | states |
|---|---|---|
| References.PadStart | lib/utils/format.ts:51 | `padStart` never truncates: the result is as long as the input or the width, whichever is larger, and it is fill characters followed by the input |
| References.ReferenceRoundTrip | lib/utils/format.ts:49-76 | for every prefix and every natural n, parsing the reference generated from n gives n + 1 |
| References.InvoiceRoundTrip | lib/utils/format.ts:49-68 | `parseInvoiceReference(generateInvoiceReference(n)) == n + 1` for every natural n |
| References.ClientRoundTrip | lib/utils/format.ts:57-76 | `parseClientReference(generateClientReference(n)) == n + 1` for every natural n |
| References.PrefixesDoNotCross | lib/utils/format.ts:49-76 | an invoice reference parses to 0 as a client reference, and a client reference parses to 0 as an invoice reference |
| References.ReferenceLength | lib/utils/format.ts:51 | a reference is exactly 8 characters for n ≤ 999998 and longer from then on, since padding never truncates |
| References.GenerateExamples | lib/utils/format.ts:49-60 | the first references are `F-000001` and `C-000001` (sequence 1, never 0) |
| References.ParseWithoutMatch | lib/utils/format.ts:65-68 | when `<prefix>-<digit>` occurs nowhere in the string, parsing gives 0 |
| References.ParseAtFirstMatch | lib/utils/format.ts:66-67 | parsing reads the maximal digit run after the leftmost `<prefix>-<digit>` occurrence, wherever it is |
| References.AbsentPrefixParsesZero | lib/utils/format.ts:66-67 | a string without the prefix letter parses to 0 |
| References.ParseLeadingZerosExample | lib/utils/format.ts:65-68 | `F-000067` parses to 67: leading zeros are ignored |
| References.ParseGarbageExample | lib/utils/format.ts:65-68 | `garbage` parses to 0 |
| References.ParseUnanchoredExample | lib/utils/format.ts:65-68 | `xF-12y` parses to 12: the search is unanchored and stops at the first non-digit |
| InvoiceStatus.IsOverdue | lib/utils/invoice-status.ts:4-13 | a paid invoice is never overdue; any other is overdue iff its due day is strictly before today, so the due day itself is not late |
| InvoiceStatus.CalculateInvoiceStatus | lib/utils/invoice-status.ts:18-32 | the result is one of paid/overdue/draft/sent; it is paid iff isPaid or the current status is paid; overdue iff unpaid, not paid before and past due; draft iff a not-past-due draft; sent for every other not-past-due status, unknown strings and `overdue` included |
| InvoiceStatus.StatusIdempotent | lib/utils/invoice-status.ts:18-32 | with isPaid false and a fixed today, applying the status computation to its own result changes nothing |
| InvoiceStatus.OverdueMonotone | lib/utils/invoice-status.ts:12 | an invoice overdue on one day is overdue on every later day |
| InvoiceStatus.StoredStatusAgreesWithIsOverdue | lib/utils/invoice-status.ts:23-28 | for an unpaid invoice the result is `overdue` iff `isOverdue` holds of the current status; and `isOverdue` holds of the result iff the result is `overdue` |
| InvoiceStatus.OverdueThenPaidScenario | lib/utils/invoice-status.ts:18-32 | a sent invoice seen 31 days after its due day is overdue; marked paid, it is paid and no longer overdue although the due day is unchanged |
| LineItems.BlankItem | components/invoices/invoice-form.tsx:122-133 | the added row has an empty description, no additional text, price 0, quantity 1, total 0 (so its total is price × quantity) and the order index it is given |
| LineItems.InitialItems | components/invoices/invoice-form.tsx:58-66 | a new invoice starts with exactly one row, the blank row with order index 0 |
| LineItems.ApplyEdit | components/invoices/invoice-form.tsx:113-118 | editing the price or the quantity sets that field and makes the total price × quantity; editing the description or the additional information changes that text only and leaves the total alone; the order index never changes |
| LineItems.UpdateItem | components/invoices/invoice-form.tsx:107-120 | only the row at the index changes; the length and every other row stay the same |
| LineItems.AddItem | components/invoices/invoice-form.tsx:122-133 | exactly one blank row is appended, numbered with the previous length; the earlier rows are untouched |
| LineItems.RemoveItem | components/invoices/invoice-form.tsx:135-137 | for an index in range the result is the rows before it followed by the rows after it, in order; for any other index nothing changes |
| LineItems.CalculateTotal | components/invoices/invoice-form.tsx:139-141 | the loop returns the sum of the line totals |
| LineItems.UpdateItemSum | components/invoices/invoice-form.tsx:107-141 | editing one row moves the sum by exactly that row's change of total |
| LineItems.AddItemSum | components/invoices/invoice-form.tsx:122-141 | adding a row leaves the sum unchanged |
| LineItems.RemoveItemSum | components/invoices/invoice-form.tsx:135-141 | removing a row takes exactly its total off the sum |
| LineItems.EditingKeepsConsistency | components/invoices/invoice-form.tsx:107-137 | if every row's total is price × quantity, that stays true after any edit, add or remove |
| LineItems.TotalTtc | components/invoices/invoice-form.tsx:328 | TTC is HT plus one fifth of HT when VAT applies, and HT otherwise |
| LineItems.VatAmount | components/invoices/invoice-form.tsx:538-547 | the TVA line exists iff VAT applies, and then shows TTC − HT, which is one fifth of HT |
| LineItems.FormTotals | components/invoices/invoice-form.tsx:326-556 | the totals panel shows the sum of line totals as HT, a TVA line iff VAT applies whose amount is HT / 5, and a TTC equal to HT plus the TVA shown, that is 1.2 × HT with VAT and HT without |
| LineItems.TotalsScenario | components/invoices/invoice-form.tsx:107-141 | a row edited to price 100 and quantity 2.5 totals 250; with VAT the panel shows 250 HT, 50 TVA and 300 TTC |
| InvoiceSubmit.HasIncompleteItem | components/invoices/invoice-form.tsx:173-176 | the scan finds an incomplete row iff some row has an empty description or a total of exactly 0 |
| InvoiceSubmit.ValidateSubmit | components/invoices/invoice-form.tsx:143-181 | the pre-save checks pass iff the user is logged in, a client is selected, an edited invoice has a reference that is not blank after trimming, and the rows are accepted; otherwise the first failing check in that order is reported |
| InvoiceSubmit.ErrorMessagesDistinct | components/invoices/invoice-form.tsx:150-179 | the four refusals show four different messages: two errors give the same text iff they are the same error |
| InvoiceSubmit.IdeographicSpaceReferenceMissing | components/invoices/invoice-form.tsx:166-171 | an edited invoice whose reference is a lone ideographic space (U+3000) is refused as missing its reference, since `trim` removes it |
| InvoiceSubmit.DescriptionNotTrimmed | components/invoices/invoice-form.tsx:173-176 | a whitespace-only description passes the row check; an empty one does not |
| InvoiceSubmit.InitialItemsRefused | components/invoices/invoice-form.tsx:173-181 | the single blank row a new invoice opens with cannot be saved as it is |
| InvoiceSubmit.VersionRoundTrip | components/invoices/invoice-form.tsx:204-205 | a version written with one decimal reads back as the same number of tenths |
| InvoiceSubmit.NextVersion | components/invoices/invoice-form.tsx:204-205 | the bump yields a version exactly when the stored one, or "1.0" when it is missing, reads as a version, and the version it yields reads as that one plus one tenth |
| InvoiceSubmit.NextVersionIncrements | components/invoices/invoice-form.tsx:204-205 | every save raises the version by exactly one tenth |
| InvoiceSubmit.NextVersionFromFirst | components/invoices/invoice-form.tsx:204-205 | "1.0" becomes "1.1" |
| InvoiceSubmit.NextVersionCarries | components/invoices/invoice-form.tsx:204-205 | "1.9" becomes "2.0" |
| InvoiceSubmit.NextVersionWhenMissing | components/invoices/invoice-form.tsx:204 | an invoice without a version is treated as "1.0" and becomes "1.1" |
| InvoiceSubmit.ItemsToInsert | components/invoices/invoice-form.tsx:296-304 | one saved row per form row, in form order, with order index equal to its position whatever index the form row carried; description, price, quantity and total are copied, and the additional information is null iff it was empty |
| InvoiceSubmit.SavedRowsOrdered | components/invoices/invoice-form.tsx:271-279 | the saved rows' order indexes strictly increase, so sorting by them keeps the form's order |
| InvoiceSubmit.SaveLoadRoundTrip | components/invoices/invoice-form.tsx:296-304 | saving and loading back gives the form rows with only the order index replaced by the position; rows already numbered by position come back unchanged |
| InvoiceSubmit.SaveKeepsTotal | components/invoices/invoice-form.tsx:296-304 | saving does not change the invoice's HT sum |
| InvoiceSubmit.InMemoryIndexMayRepeat | components/invoices/invoice-form.tsx:122-137 | removing then adding rows can repeat an order index in the form ([1, 2, 2]); the saved rows are still numbered 0, 1, 2 |
| StatusToggle.OfferedActions | components/invoices/status-toggle.tsx:53-85 | "paid" is offered iff the status is not paid; "unpaid" iff it is paid; "sent" iff it is draft; the menu is never empty |
| StatusToggle.OfferedMenus | components/invoices/status-toggle.tsx:55-84 | the menus in order: paid gives [unpaid], draft gives [paid, sent], any other status gives [paid] |
| StatusToggle.PaidUnpaidExclusive | components/invoices/status-toggle.tsx:55-74 | exactly one of "paid" and "unpaid" is offered, and no button appears twice |
| StatusToggle.Label | components/invoices/status-toggle.tsx:33-40 | the label lookup, with its fallback, returns the status it is given, for every status that is not an inherited object key; the buttons send only paid, unpaid and sent |
| StatusToggle.SuccessMessage | components/invoices/status-toggle.tsx:40 | the success message is "Invoice marked as " followed by the new status, for the same statuses |
| StatusToggle.ActionMessages | components/invoices/status-toggle.tsx:40-79 | the three buttons report "Invoice marked as paid", "... unpaid" and "... sent" |
| ClientList.FilterClients | components/clients/client-list.tsx:36-40 | every listed client matches the search, and the list is no longer than the full list |
| ClientList.FilterKeepsIff | components/clients/client-list.tsx:36-40 | a client is listed iff it is in the list and its lower-cased name or reference contains the lower-cased search |
| ClientList.FilterIsSubsequence | components/clients/client-list.tsx:36 | the filtered list is an order-preserving subsequence of the full list |
| ClientList.EmptySearchKeepsAll | components/clients/client-list.tsx:36-40 | an empty search lists every client, in order |
| ClientList.CaseInsensitive | components/clients/client-list.tsx:38-39 | searches that differ only in letter case give the same list |
| ClientList.LowerCasedSearch | components/clients/client-list.tsx:38-39 | typing the search already in lower case gives the same list as typing it in any case |
| ClientList.Narrowing | components/clients/client-list.tsx:36-40 | a client that matches a search also matches every part of it |
| ClientList.FilterMonotone | components/clients/client-list.tsx:36-40 | if search s is contained in search t, every client listed for t is listed for s |
| ClientList.RemoveById | components/clients/client-list.tsx:68 | after a delete no listed entry has the deleted id, and the list is no longer |
| ClientList.RemoveKeepsOthers | components/clients/client-list.tsx:68 | after a delete a client is listed iff it was listed before and has another id |
| ClientList.RemoveIsSubsequence | components/clients/client-list.tsx:68 | the list after a delete keeps the remaining entries in their order |
| ClientList.RemoveUniqueId | components/clients/client-list.tsx:68 | deleting a client whose id is listed once removes exactly that entry |
| ClientList.EmptyState | components/clients/client-list.tsx:87-129 | no message while some client is listed; otherwise "No clients match your search." iff the search is non-empty, and the "No clients yet" text iff it is empty |
| ClientList.InvitationOnlyWhenEmpty | components/clients/client-list.tsx:124-129 | without a search, the "No clients yet" text shows iff there is no client at all |
| Strings.Trim | components/invoices/invoice-pdf.tsx:283 | the result is an infix of the string with only whitespace before and after it, starts and ends with a non-whitespace character, and is "" iff the string is blank; whitespace is the full set `trim` removes, Unicode space separators and line terminators included |
| Strings.SplitJoin | components/invoices/invoice-pdf.tsx:281-283 | splitting on a character and re-joining with it gives the string back |
| Strings.ContainsIff | components/clients/client-list.tsx:38-39 | `includes` holds iff the searched text occurs at some position |
| Documents.GroupPairs | components/invoices/invoice-pdf.tsx:284-289 | pairing the parts yields ceil(parts / 2) lines |
| Documents.GroupPairsJoin | components/invoices/invoice-pdf.tsx:284-289 | the grouped lines re-joined with ", " equal the parts joined with ", " |
| Documents.GroupAddressShape | components/invoices/invoice-pdf.tsx:281-289 | the sender address prints as ceil((commas + 1) / 2) lines that re-join to its trimmed comma-separated parts |
| Documents.GroupAddressWithoutComma | components/invoices/invoice-pdf.tsx:281-289 | an address without a comma prints as one line, the trimmed address |
| Documents.GroupAddressExample | components/invoices/invoice-pdf.tsx:281-289 | "Rue A, 75001, Paris, France" splits at its commas into the trimmed parts "Rue A", "75001", "Paris" and "France", and prints as "Rue A, 75001" and "Paris, France" |
| Documents.TotalsCounts | components/invoices/invoice-pdf.tsx:374-396 | a totals block shows TTC on exactly two lines and no disclaimer |
| Sections.HeadingLines | components/invoices/invoice-pdf.tsx:304-316 | title, reference, version and invoice date always; the client reference line iff it is non-empty |
| Sections.ClientLines | components/invoices/invoice-pdf.tsx:322-329 | no client block without a client; otherwise the name, then the address iff it is non-empty |
| Sections.TableLines | components/invoices/invoice-pdf.tsx:332-372 | the header, then one row per item in input order with its description, price, quantity and total; the secondary line iff the additional information is non-empty |
| Sections.TotalsLines | components/invoices/invoice-pdf.tsx:375-396 | Total HT first; the TVA line showing TTC − HT iff VAT applies; then TTC twice with the same value, as "Total Net TTC" and "Net à payer" |
| Sections.VatNoteLines | components/invoices/invoice-pdf.tsx:399-403 | the VAT exemption note, citing the article, iff VAT does not apply and an article is given |
| Sections.NotesLines | components/invoices/invoice-pdf.tsx:446-450 | the notes line iff the notes are non-empty |
| Sections.BankingFieldsShown | components/invoices/invoice-pdf.tsx:406-433 | with bank details, the column is its title then each non-empty field in the order bank, RIB, IBAN, BIC |
| Sections.BankingLinesShape | components/invoices/invoice-pdf.tsx:406-433 | the title always; each bank field line iff that field is present and non-empty, in order; none without bank details |
| InvoicePdf.SenderLinesShape | components/invoices/invoice-pdf.tsx:276-301 | the sender column's address lines are the grouped address iff there is a non-empty address; besides them come the company name, phone and e-mail, each iff non-empty |
| InvoicePdf.PdfLayout | components/invoices/invoice-pdf.tsx:261-467 | the page section by section: grouped sender address, heading, client, item table, totals, VAT note, banking column, due date and payment method always followed by the service line, notes, and the constant legal disclaimer at the bottom |
| InvoicePdf.PdfSpecialLines | components/invoices/invoice-pdf.tsx:374-463 | on every page exactly two lines show TTC and the disclaimer's two lines are printed once |
| InvoicePreview.PreviewSenderShape | components/invoices/invoice-preview.tsx:62-82 | the preview's sender address is one verbatim line iff the address is non-empty; the other sender lines are those of the PDF |
| InvoicePreview.PreviewLayout | components/invoices/invoice-preview.tsx:49-238 | the preview section by section: the same heading, client, table, totals, VAT note and banking rules as the PDF; due date and payment method always; notes iff non-empty; the "Prestation de service" line at the end and no disclaimer |
| InvoicePreview.PreviewSpecialLines | components/invoices/invoice-preview.tsx:160-234 | the preview shows TTC on exactly two lines and no disclaimer line |
| RenderAgreement.SharedSectionsAgree | components/invoices/invoice-preview.tsx:83-229 | for the same invoice the preview and the PDF have the same heading, client, item table, totals, VAT note, banking column and notes (by the shared section definitions), and the same sender lines apart from the address |
| RenderAgreement.PlainAddressAgrees | components/invoices/invoice-preview.tsx:68-72 | an address without commas or surrounding blanks prints the same in both |
| RenderAgreement.AddressLinesRejoin | components/invoices/invoice-pdf.tsx:279-295 | the preview prints the address as one line; the PDF's lines re-joined with ", " equal the trimmed comma-separated parts of that line |
| RenderAgreement.AddressDiffersExample | components/invoices/invoice-pdf.tsx:281-289 | "a,b" prints as "a, b" in the PDF, unlike the preview's verbatim "a,b" |
| RenderAgreement.NarrowSpaceTrimmedExample | components/invoices/invoice-pdf.tsx:281-289 | "a,\u202Fb" prints as "a, b" in the PDF: the narrow no-break space after the comma is trimmed |
| RenderAgreement.ClosingLinesDiffer | components/invoices/invoice-pdf.tsx:434-463 | the PDF ends with the two disclaimer lines and puts the service line right after the payment terms; the preview ends with the service line and has no disclaimer |
| RenderAgreement.TtcAgrees | components/invoices/invoice-preview.tsx:177-188 | both renderings show TTC on exactly two lines |

## Left out

- `formatDate`, `formatNumber` and `formatCurrency` (lib/utils/format.ts:7-44): locale formatting. Rendered lines carry the raw amount or day, and both renderers would apply the same formatting.
- The database calls: authentication lookups, inserts, updates, deletes, the reference-uniqueness query on edit, the "Client not found" error raised when a new invoice's client is missing from the loaded client list (invoice-form.tsx:242-247), and the reference-generating procedures. The logged-in check is a boolean input of `InvoiceSubmit.ValidateSubmit`. The sequence counter lives in the store, which is not part of this model.
- Floating point: the product for `total_ht`, `parseFloat`, `toFixed` and `parseInt` beyond 2^53. Money is an exact real and versions are integer tenths. No rounding is modelled, because the code performs none on stored values.
- InvoiceSubmit.ParseVersion: reads only versions written as digits with at most one decimal digit. Any other text gives no version, where `parseFloat` would read a longer prefix. Versions the application writes always have this form.
- Wall clock and time zones: `new Date()`, local-midnight `setHours`, the default due date 30 days ahead, and the mutation of a passed `Date`. Dates are whole day numbers and today is a parameter.
- The server routes for status, duplicate, delete and PDF export. They are reached only over HTTP and their behaviour is not part of this model, so invoice duplication and the server's handling of "unpaid" are not modelled.
- StatusToggle.Label: inherited object keys are not modelled. The label table is a plain object, so a key such as "constructor" would find an inherited value; the model's table is a map with only its four keys. The buttons only ever send paid, unpaid and sent.
- References.GenerateReference: only natural counters are modelled. `lastNumber` is a JavaScript number (lib/utils/format.ts:49, :57); a negative one would give a text such as "F-0000-4" that parses back to 4. The counter comes from the store, which is not part of this model.
- LineItems.InitialItems: models only a new invoice. An edited invoice starts from its loaded rows (`invoice?.items || …`, invoice-form.tsx:57), kept as loaded even when the list is empty, because an empty array is truthy; loading is part of the store.
- LineItems.UpdateItem: requires the index to be in range. The form only calls it with the index of a rendered row.
- Styling, class names and page layout of the two renderers, and all other UI components.
- Unicode case mapping: lower-casing is the ASCII letter mapping.

=== FILE: client_list.dfy ===
/** The client list page: the search filter, the list after a delete and the
    message shown when nothing is listed. */
module ClientList {
  import opened Strings

  /** A client row; `address` is "" when absent. */
  datatype Client = Client(id: string, reference: string, name: string, address: string, createdAt: string)

  /** The search keeps a client whose name or reference contains the search
      text, ignoring letter case. */
  predicate Matches(c: Client, search: string) {
    Contains(Lower(c.name), Lower(search)) || Contains(Lower(c.reference), Lower(search))
  }

  /** `b` lists some of the entries of `a`, in the order of `a`. */
  predicate IsSubsequence(b: seq<Client>, a: seq<Client>)
    decreases |a|
  {
    if |b| == 0 then true
    else if |a| == 0 then false
    else (a[0] == b[0] && IsSubsequence(b[1..], a[1..])) || IsSubsequence(b, a[1..])
  }

  /** `filteredClients`. */
  function FilterClients(clients: seq<Client>, search: string): (r: seq<Client>)
    ensures |r| <= |clients|
    ensures forall i :: 0 <= i < |r| ==> Matches(r[i], search)
    decreases |clients|
  {
    if |clients| == 0 then []
    else
      var rest := FilterClients(clients[1..], search);
      if Matches(clients[0], search) then [clients[0]] + rest else rest
  }

  /** A client is listed exactly when it is in the list and matches the search. */
  lemma {:induction false} FilterKeepsIff(clients: seq<Client>, search: string, c: Client)
    ensures c in FilterClients(clients, search) <==> c in clients && Matches(c, search)
    decreases |clients|
  {
    if |clients| > 0 {
      FilterKeepsIff(clients[1..], search, c);
      assert c in clients <==> c == clients[0] || c in clients[1..];
    }
  }

  lemma {:induction false} FilterIsSubsequence(clients: seq<Client>, search: string)
    ensures IsSubsequence(FilterClients(clients, search), clients)
    decreases |clients|
  {
    if |clients| > 0 {
      var rest := FilterClients(clients[1..], search);
      FilterIsSubsequence(clients[1..], search);
      if Matches(clients[0], search) {
        assert ([clients[0]] + rest)[1..] == rest;
      }
    }
  }

  /** An empty search lists every client. */
  lemma {:induction false} EmptySearchKeepsAll(clients: seq<Client>)
    ensures FilterClients(clients, "") == clients
    decreases |clients|
  {
    if |clients| > 0 {
      ContainsEmpty(Lower(clients[0].name));
      EmptySearchKeepsAll(clients[1..]);
    }
  }

  /** Searches that differ only in letter case list the same clients. */
  lemma CaseInsensitive(clients: seq<Client>, s: string, t: string)
    requires Lower(s) == Lower(t)
    ensures FilterClients(clients, s) == FilterClients(clients, t)
  {
    SameMatches(clients, s, t);
  }

  /** Typing the search in lower case lists the same clients as typing it
      in any case. */
  lemma LowerCasedSearch(clients: seq<Client>, s: string)
    ensures FilterClients(clients, Lower(s)) == FilterClients(clients, s)
  {
    LowerIdempotent(s);
    CaseInsensitive(clients, Lower(s), s);
  }

  lemma {:induction false} SameMatches(clients: seq<Client>, s: string, t: string)
    requires forall c :: c in clients ==> (Matches(c, s) <==> Matches(c, t))
    ensures FilterClients(clients, s) == FilterClients(clients, t)
    decreases |clients|
  {
    if |clients| > 0 {
      SameMatches(clients[1..], s, t);
    }
  }

  /** Typing more narrows the list: a client listed for a search is listed
      for every part of it. */
  lemma Narrowing(c: Client, s: string, t: string)
    requires Contains(t, s) && Matches(c, t)
    ensures Matches(c, s)
  {
    LowerPreservesContains(t, s);
    if Contains(Lower(c.name), Lower(t)) {
      ContainsTransitive(Lower(s), Lower(t), Lower(c.name));
    } else {
      ContainsTransitive(Lower(s), Lower(t), Lower(c.reference));
    }
  }

  lemma FilterMonotone(clients: seq<Client>, s: string, t: string)
    requires Contains(t, s)
    ensures forall c :: c in FilterClients(clients, t) ==> c in FilterClients(clients, s)
  {
    forall c | c in FilterClients(clients, t)
      ensures c in FilterClients(clients, s)
    {
      FilterKeepsIff(clients, t, c);
      FilterKeepsIff(clients, s, c);
      Narrowing(c, s, t);
    }
  }

  /** The list after a successful delete: every entry with that id goes, the
      others stay in order. */
  function RemoveById(clients: seq<Client>, id: string): (r: seq<Client>)
    ensures |r| <= |clients|
    ensures forall i :: 0 <= i < |r| ==> r[i].id != id
    decreases |clients|
  {
    if |clients| == 0 then []
    else
      var rest := RemoveById(clients[1..], id);
      if clients[0].id != id then [clients[0]] + rest else rest
  }

  /** After the delete, a client is listed exactly when it was listed before
      and has another id. */
  lemma {:induction false} RemoveKeepsOthers(clients: seq<Client>, id: string, c: Client)
    ensures c in RemoveById(clients, id) <==> c in clients && c.id != id
    decreases |clients|
  {
    if |clients| > 0 {
      RemoveKeepsOthers(clients[1..], id, c);
      assert c in clients <==> c == clients[0] || c in clients[1..];
    }
  }

  lemma {:induction false} RemoveIsSubsequence(clients: seq<Client>, id: string)
    ensures IsSubsequence(RemoveById(clients, id), clients)
    decreases |clients|
  {
    if |clients| > 0 {
      var rest := RemoveById(clients[1..], id);
      RemoveIsSubsequence(clients[1..], id);
      if clients[0].id != id {
        assert ([clients[0]] + rest)[1..] == rest;
      }
    }
  }

  lemma {:induction false} NoSuchId(clients: seq<Client>, id: string)
    requires forall j :: 0 <= j < |clients| ==> clients[j].id != id
    ensures RemoveById(clients, id) == clients
    decreases |clients|
  {
    if |clients| > 0 {
      NoSuchId(clients[1..], id);
    }
  }

  /** Deleting a client whose id is listed once removes exactly that entry
      and keeps the others in order. */
  lemma {:induction false} RemoveUniqueId(pre: seq<Client>, x: Client, post: seq<Client>)
    requires forall j :: 0 <= j < |pre| ==> pre[j].id != x.id
    requires forall j :: 0 <= j < |post| ==> post[j].id != x.id
    ensures RemoveById(pre + [x] + post, x.id) == pre + post
    decreases |pre|
  {
    var all := pre + [x] + post;
    if |pre| == 0 {
      assert all[1..] == post;
      NoSuchId(post, x.id);
      assert pre + post == post;
    } else {
      assert all[1..] == pre[1..] + [x] + post;
      RemoveUniqueId(pre[1..], x, post);
      assert pre + post == [pre[0]] + (pre[1..] + post);
    }
  }

  const NoMatchMessage: string := "No clients match your search."
  const NoClientsMessage: string := "No clients yet. Create your first client to get started."

  /** The message in place of the table: none while some client is listed;
      otherwise the no-match text for a non-empty search and the first-client
      invitation for an empty one. */
  function EmptyState(clients: seq<Client>, search: string): (msg: string)
    ensures msg == "" <==> |FilterClients(clients, search)| > 0
    ensures msg == NoMatchMessage <==> |FilterClients(clients, search)| == 0 && search != ""
    ensures msg == NoClientsMessage <==> |FilterClients(clients, search)| == 0 && search == ""
  {
    if |FilterClients(clients, search)| > 0 then ""
    else if search != "" then NoMatchMessage
    else NoClientsMessage
  }

  /** Without a search, the invitation shows exactly when there is no client at all. */
  lemma InvitationOnlyWhenEmpty(clients: seq<Client>)
    ensures EmptyState(clients, "") == NoClientsMessage <==> |clients| == 0
  {
    EmptySearchKeepsAll(clients);
  }
}

=== FILE: documents.dfy ===
/** The vocabulary both invoice renderers share: the resolved invoice they are
    given, and the rendered document as labelled lines grouped into sections.
    Amounts and dates are carried unformatted; the date, number and currency
    formatting both renderers apply to them is outside the model. */
module Documents {
  import opened Wrappers
  import opened Strings
  import opened LineItems

  /** Bank details of the sender; each field is "" when not filled in. */
  datatype Banking = Banking(bankName: string, rib: string, iban: string, bic: string)

  /** The sender's profile; each text field is "" when not filled in. */
  datatype Sender = Sender(
    companyName: string,
    address: string,
    phone: string,
    email: string,
    banking: Option<Banking>)

  datatype ClientInfo = ClientInfo(name: string, address: string)

  /** An invoice with its client, sender profile and items resolved. Optional
      texts are "" when absent; dates are day numbers. */
  datatype InvoiceView = InvoiceView(
    reference: string,
    version: string,
    invoiceDate: int,
    dueDate: int,
    paymentMethod: string,
    vatApplicable: bool,
    vatArticle: string,
    notes: string,
    clientReference: string,
    client: Option<ClientInfo>,
    sender: Option<Sender>,
    items: seq<Item>)

  /** One labelled line (or table row) of a rendered invoice. */
  datatype Line =
    | CompanyName(name: string)
    | SenderAddress(text: string)
    | SenderPhone(phone: string)          // "Tél.: <phone>"
    | SenderEmail(email: string)
    | Title                               // "FACTURE"
    | ReferenceLine(reference: string)    // "Référence: <reference>"
    | VersionLine(version: string)        // "Version: <version>"
    | InvoiceDateLine(day: int)           // "Date de facturation: <date>"
    | ClientReferenceLine(clientRef: string)  // "Référence client: <reference>"
    | ClientName(clientName: string)
    | ClientAddress(clientAddress: string)
    | TableHeader                         // Description | Prix Unit. HT | Quantité | Total HT
    | ItemRow(description: string, additionalInfo: Option<string>,
              unitPriceHt: real, quantity: real, totalHt: real)
    | TotalHtLine(ht: real)               // "Total HT:"
    | VatLine(vat: real)                  // "TVA (20%):"
    | TotalTtcLine(ttc: real)             // "Total Net TTC:"
    | AmountDueLine(due: real)            // "Net à payer:"
    | VatExemption(article: string)       // "TVA non applicable, <article>"
    | BankingTitle                        // "Informations Bancaires"
    | BankName(bank: string)              // "Banque: <name>"
    | Rib(rib: string)                    // "RIB: <rib>"
    | Iban(iban: string)                  // "IBAN: <iban>"
    | Bic(bic: string)                    // "BIC: <bic>"
    | DueDateLine(dueDay: int)            // "Date d'échéance: <date>"
    | PaymentMethodLine(paymentMethod: string)  // "Mode de paiement: <method>"
    | ServiceFooter                       // "Prestation de service"
    | NotesLine(notes: string)
    | Disclaimer(text: string)

  /** A rendered invoice, section by section, in reading order. */
  datatype Document = Document(
    sender: seq<Line>,
    heading: seq<Line>,
    client: seq<Line>,
    table: seq<Line>,
    totals: seq<Line>,
    vatNote: seq<Line>,
    banking: seq<Line>,
    payment: seq<Line>,
    notes: seq<Line>,
    footer: seq<Line>)

  /** The whole document as one sequence of lines. */
  function Lines(d: Document): seq<Line>
  {
    d.sender + d.heading + d.client + d.table + d.totals + d.vatNote + d.banking
    + d.payment + d.notes + d.footer
  }

  /** `{cond && <line/>}`: the line when the condition holds, nothing otherwise. */
  function When(cond: bool, line: Line): (r: seq<Line>)
    ensures cond ==> r == [line]
    ensures !cond ==> r == []
  {
    if cond then [line] else []
  }

  /** The present-or-absent optional text of an item as a value. */
  function OptionalText(s: string): (r: Option<string>)
    ensures r.Some? <==> s != ""
    ensures r.Some? ==> r.value == s
  {
    if s == "" then None else Some(s)
  }

  /** The sender address lines of a section, in order. */
  function AddressTexts(lines: seq<Line>): (r: seq<string>)
    ensures |r| <= |lines|
  {
    if |lines| == 0 then []
    else (if lines[0].SenderAddress? then [lines[0].text] else []) + AddressTexts(lines[1..])
  }

  /** A section with the address lines taken out. */
  function WithoutAddress(lines: seq<Line>): (r: seq<Line>)
    ensures forall i :: 0 <= i < |r| ==> !r[i].SenderAddress?
  {
    if |lines| == 0 then []
    else (if lines[0].SenderAddress? then [] else [lines[0]]) + WithoutAddress(lines[1..])
  }

  /** A line that is not an address line contributes no address text. */
  lemma WhenNotAddress(cond: bool, l: Line)
    requires !l.SenderAddress?
    ensures AddressTexts(When(cond, l)) == [] && WithoutAddress(When(cond, l)) == When(cond, l)
  {
    if cond {
      assert [l][1..] == [];
    }
  }

  /** An optional address line contributes its text, and nothing else. */
  lemma WhenAddress(cond: bool, text: string)
    ensures AddressTexts(When(cond, SenderAddress(text))) == (if cond then [text] else [])
    ensures WithoutAddress(When(cond, SenderAddress(text))) == []
  {
    if cond {
      assert [SenderAddress(text)][1..] == [];
    }
  }

  lemma {:induction false} AddressTextsAppend(a: seq<Line>, b: seq<Line>)
    ensures AddressTexts(a + b) == AddressTexts(a) + AddressTexts(b)
    decreases |a|
  {
    if |a| > 0 {
      AddressTextsAppend(a[1..], b);
      assert (a + b)[1..] == a[1..] + b;
    } else {
      assert a + b == b;
    }
  }

  lemma {:induction false} WithoutAddressAppend(a: seq<Line>, b: seq<Line>)
    ensures WithoutAddress(a + b) == WithoutAddress(a) + WithoutAddress(b)
    decreases |a|
  {
    if |a| > 0 {
      WithoutAddressAppend(a[1..], b);
      assert (a + b)[1..] == a[1..] + b;
    } else {
      assert a + b == b;
    }
  }

  /** A section made of a name, address lines, a phone and an e-mail line
      (each possibly absent) splits into its address texts and the rest. */
  lemma SplitAddress(name: seq<Line>, addr: seq<Line>, phone: seq<Line>, email: seq<Line>)
    requires AddressTexts(name) == [] && WithoutAddress(name) == name
    requires AddressTexts(phone) == [] && WithoutAddress(phone) == phone
    requires AddressTexts(email) == [] && WithoutAddress(email) == email
    requires WithoutAddress(addr) == []
    ensures AddressTexts(name + addr + phone + email) == AddressTexts(addr)
    ensures WithoutAddress(name + addr + phone + email) == name + phone + email
  {
    var na := name + addr;
    var nap := na + phone;
    assert AddressTexts(na) == AddressTexts(addr) by {
      AddressTextsAppend(name, addr);
      assert [] + AddressTexts(addr) == AddressTexts(addr);
    }
    assert AddressTexts(nap) == AddressTexts(addr) by {
      AddressTextsAppend(na, phone);
      assert AddressTexts(addr) + [] == AddressTexts(addr);
    }
    assert AddressTexts(nap + email) == AddressTexts(addr) by {
      AddressTextsAppend(nap, email);
      assert AddressTexts(addr) + [] == AddressTexts(addr);
    }
    assert WithoutAddress(na) == name by {
      WithoutAddressAppend(name, addr);
      assert name + [] == name;
    }
    assert WithoutAddress(nap) == name + phone by {
      WithoutAddressAppend(na, phone);
    }
    assert WithoutAddress(nap + email) == name + phone + email by {
      WithoutAddressAppend(nap, email);
    }
  }

  /** What a line is there for, as far as comparing the two renderings goes:
      showing the TTC amount ("Total Net TTC" and "Net à payer"), the legal
      disclaimer, or anything else. */
  datatype Role = Body | Ttc | Legal

  function RoleOf(l: Line): Role {
    if l.TotalTtcLine? || l.AmountDueLine? then Ttc
    else if l.Disclaimer? then Legal
    else Body
  }

  /** Number of lines with the given role. */
  function CountRole(lines: seq<Line>, role: Role): nat
  {
    if |lines| == 0 then 0
    else (if RoleOf(lines[0]) == role then 1 else 0) + CountRole(lines[1..], role)
  }

  lemma {:induction false} CountRoleAppend(a: seq<Line>, b: seq<Line>, role: Role)
    ensures CountRole(a + b, role) == CountRole(a, role) + CountRole(b, role)
    decreases |a|
  {
    if |a| == 0 {
      assert a + b == b;
    } else {
      assert (a + b)[1..] == a[1..] + b;
      CountRoleAppend(a[1..], b, role);
    }
  }

  /** Every line is an ordinary one. */
  predicate AllBody(lines: seq<Line>) {
    forall i :: 0 <= i < |lines| ==> RoleOf(lines[i]) == Body
  }

  lemma {:induction false} BodyCountsNothing(lines: seq<Line>, role: Role)
    requires AllBody(lines) && role != Body
    ensures CountRole(lines, role) == 0
    decreases |lines|
  {
    if |lines| > 0 {
      assert AllBody(lines[1..]) by {
        assert forall i :: 0 <= i < |lines| - 1 ==> lines[1..][i] == lines[i + 1];
      }
      BodyCountsNothing(lines[1..], role);
    }
  }

  lemma AppendBody(a: seq<Line>, b: seq<Line>)
    requires AllBody(a) && AllBody(b)
    ensures AllBody(a + b)
  {
    assert forall i :: |a| <= i < |a + b| ==> (a + b)[i] == b[i - |a|];
  }

  lemma WhenIsBody(cond: bool, l: Line)
    requires RoleOf(l) == Body
    ensures AllBody(When(cond, l))
  {
  }

  /** A column made of four body parts is all body. */
  lemma FourBody(a: seq<Line>, b: seq<Line>, c: seq<Line>, e: seq<Line>)
    requires AllBody(a) && AllBody(b) && AllBody(c) && AllBody(e)
    ensures AllBody(a + b + c + e)
  {
    AppendBody(a, b);
    AppendBody(a + b, c);
    AppendBody(a + b + c, e);
  }

  /** Position of a line in the banking column: title, bank, RIB, IBAN, BIC. */
  function BankingRank(l: Line): int {
    match l
    case BankingTitle => 0
    case BankName(_) => 1
    case Rib(_) => 2
    case Iban(_) => 3
    case Bic(_) => 4
    case _ => 5
  }

  /** The lines of a section follow the banking column order strictly. */
  predicate InBankingOrder(lines: seq<Line>) {
    forall i :: 0 < i < |lines| ==> BankingRank(lines[i - 1]) < BankingRank(lines[i])
  }

  /** Address texts as consecutive address lines. */
  function AsAddressLines(texts: seq<string>): (r: seq<Line>)
    ensures |r| == |texts|
    ensures forall i :: 0 <= i < |r| ==> r[i] == SenderAddress(texts[i])
    ensures AddressTexts(r) == texts && WithoutAddress(r) == []
    decreases |texts|
  {
    if |texts| == 0 then []
    else
      var r := [SenderAddress(texts[0])] + AsAddressLines(texts[1..]);
      assert r[1..] == AsAddressLines(texts[1..]);
      r
  }

  // ---------------------------------------------------------------------
  // What each section of an invoice shows, independent of the renderer

  /** The bank details of the sender, when there is a sender with bank details. */
  function BankingOf(sender: Option<Sender>): Option<Banking>
  {
    if sender.Some? then sender.value.banking else None
  }

  /** The item table: the column header, then one row per item in input order
      with the item's four columns; the secondary line of a row is present
      exactly when the item's additional information is not empty. */
  predicate ShowsItems(table: seq<Line>, items: seq<Item>)
  {
    |table| == |items| + 1 && table[0] == TableHeader
    && forall i :: 0 <= i < |items| ==>
         table[i + 1] == ItemRow(items[i].description, OptionalText(items[i].additionalInfo),
                                 items[i].unitPriceHt, items[i].quantity, items[i].totalHt)
  }

  /** The totals block: HT first, the TVA line (TTC − HT) exactly when VAT
      applies, then TTC twice with the same value, as the gross total and as
      the amount due. */
  predicate ShowsTotals(totals: seq<Line>, vatApplicable: bool, totalHt: real, totalTtc: real)
  {
    |totals| == (if vatApplicable then 4 else 3) && totals[0] == TotalHtLine(totalHt)
    && totals[|totals| - 2..] == [TotalTtcLine(totalTtc), AmountDueLine(totalTtc)]
    && (vatApplicable ==> totals[1] == VatLine(totalTtc - totalHt))
  }

  /** The VAT exemption note: present exactly when VAT does not apply and an
      article is given, and then it cites that article. */
  predicate ShowsVatNote(note: seq<Line>, vatApplicable: bool, vatArticle: string)
  {
    |note| <= 1
    && (|note| == 1 <==> !vatApplicable && vatArticle != "")
    && forall i :: 0 <= i < |note| ==> note[i] == VatExemption(vatArticle)
  }

  /** One bank field line, printed only for a non-empty field. */
  predicate IsBankField(l: Line, b: Banking)
  {
    (l == BankName(b.bankName) && b.bankName != "")
    || (l == Rib(b.rib) && b.rib != "")
    || (l == Iban(b.iban) && b.iban != "")
    || (l == Bic(b.bic) && b.bic != "")
  }

  /** The banking column: its title always, then each non-empty bank field of
      the sender, in the order bank name, RIB, IBAN, BIC. */
  predicate ShowsBanking(lines: seq<Line>, banking: Option<Banking>)
  {
    |lines| >= 1 && lines[0] == BankingTitle && InBankingOrder(lines)
    && (forall i :: 1 <= i < |lines| ==> banking.Some? && IsBankField(lines[i], banking.value))
    && (banking.Some? ==>
          var b := banking.value;
          (BankName(b.bankName) in lines <==> b.bankName != "")
          && (Rib(b.rib) in lines <==> b.rib != "")
          && (Iban(b.iban) in lines <==> b.iban != "")
          && (Bic(b.bic) in lines <==> b.bic != ""))
  }

  /** The banking column built so far, one optional bank field further on. */
  lemma ExtendBanking(a: seq<Line>, cond: bool, x: Line, b: Banking) returns (r: seq<Line>)
    requires |a| >= 1 && a[0] == BankingTitle && InBankingOrder(a)
    requires forall i :: 1 <= i < |a| ==> IsBankField(a[i], b)
    requires BankingRank(a[|a| - 1]) < BankingRank(x)
    requires cond ==> IsBankField(x, b)
    ensures r == a + When(cond, x) && a <= r
    ensures |r| >= 1 && r[0] == BankingTitle && InBankingOrder(r)
    ensures forall i :: 1 <= i < |r| ==> IsBankField(r[i], b)
    ensures BankingRank(r[|r| - 1]) <= BankingRank(x)
    ensures cond ==> x in r
  {
    r := a + When(cond, x);
    if cond {
      assert r[|a|] == x;
    } else {
      assert r == a;
    }
  }

  /** A column whose lines after the title are all non-empty bank fields
      shows no empty one. */
  lemma NoEmptyBankField(lines: seq<Line>, b: Banking)
    requires |lines| >= 1 && lines[0] == BankingTitle
    requires forall i :: 1 <= i < |lines| ==> IsBankField(lines[i], b)
    ensures BankName("") !in lines && Rib("") !in lines && Iban("") !in lines && Bic("") !in lines
  {
    forall i | 0 <= i < |lines|
      ensures lines[i] != BankName("") && lines[i] != Rib("") && lines[i] != Iban("") && lines[i] != Bic("")
    {
      if i >= 1 {
        assert IsBankField(lines[i], b);
      }
    }
  }

  /** The client block: absent without a client; otherwise the client's name,
      followed by the address exactly when it is not empty. */
  predicate ShowsClient(lines: seq<Line>, client: Option<ClientInfo>)
  {
    (client.None? ==> lines == [])
    && (client.Some? ==>
          |lines| >= 1 && lines[0] == ClientName(client.value.name)
          && (lines[1..] == [ClientAddress(client.value.address)] <==> client.value.address != "")
          && (lines[1..] == [] <==> client.value.address == ""))
  }

  /** The reference block: title, reference, version and invoice date, then
      the client reference exactly when it is not empty. */
  predicate ShowsHeading(lines: seq<Line>, inv: InvoiceView)
  {
    |lines| >= 4
    && lines[..4] == [Title, ReferenceLine(inv.reference), VersionLine(inv.version), InvoiceDateLine(inv.invoiceDate)]
    && (lines[4..] == [ClientReferenceLine(inv.clientReference)] <==> inv.clientReference != "")
    && (lines[4..] == [] <==> inv.clientReference == "")
  }

  /** Free-text notes: present exactly when not empty. */
  predicate ShowsNotes(lines: seq<Line>, notes: string)
  {
    |lines| <= 1
    && (|lines| == 1 <==> notes != "")
    && forall i :: 0 <= i < |lines| ==> lines[i] == NotesLine(notes)
  }

  /** The sender column apart from the address: company name, phone and
      e-mail, each exactly when present and not empty, in that order. */
  predicate ShowsSenderIdentity(lines: seq<Line>, sender: Option<Sender>)
  {
    lines ==
      if sender.None? then []
      else
        var s := sender.value;
        When(s.companyName != "", CompanyName(s.companyName))
        + When(s.phone != "", SenderPhone(s.phone))
        + When(s.email != "", SenderEmail(s.email))
  }

  /** When every section but the totals and the footer is made of ordinary
      lines, the TTC and disclaimer lines of a document are those two sections'. */
  lemma SpecialLinesOf(d: Document, role: Role)
    requires role != Body
    requires AllBody(d.sender) && AllBody(d.heading) && AllBody(d.client) && AllBody(d.table)
    requires AllBody(d.vatNote) && AllBody(d.banking) && AllBody(d.payment) && AllBody(d.notes)
    ensures CountRole(Lines(d), role) == CountRole(d.totals, role) + CountRole(d.footer, role)
  {
    var before := d.sender + d.heading + d.client + d.table;
    var after := d.vatNote + d.banking + d.payment + d.notes;
    AppendBody(d.sender, d.heading);
    AppendBody(d.sender + d.heading, d.client);
    AppendBody(d.sender + d.heading + d.client, d.table);
    AppendBody(d.vatNote, d.banking);
    AppendBody(d.vatNote + d.banking, d.payment);
    AppendBody(d.vatNote + d.banking + d.payment, d.notes);
    assert Lines(d) == before + d.totals + after + d.footer;
    CountRoleAppend(before + d.totals + after, d.footer, role);
    CountRoleAppend(before + d.totals, after, role);
    CountRoleAppend(before, d.totals, role);
    BodyCountsNothing(before, role);
    BodyCountsNothing(after, role);
  }

  /** A totals block shows TTC exactly twice, and no disclaimer. */
  lemma TotalsCounts(totals: seq<Line>, vatApplicable: bool, totalHt: real, totalTtc: real)
    requires ShowsTotals(totals, vatApplicable, totalHt, totalTtc)
    ensures CountRole(totals, Ttc) == 2 && CountRole(totals, Legal) == 0
  {
    var k := |totals| - 2;
    var head, tail := totals[..k], totals[k..];
    assert totals == head + tail;
    CountRoleAppend(head, tail, Ttc);
    CountRoleAppend(head, tail, Legal);
    assert AllBody(head);
    BodyCountsNothing(head, Ttc);
    BodyCountsNothing(head, Legal);
    assert tail[1..] == [AmountDueLine(totalTtc)];
    assert tail[1..][1..] == [];
    assert CountRole(tail[1..][1..], Ttc) == 0 && CountRole(tail[1..][1..], Legal) == 0;
    assert CountRole(tail[1..], Ttc) == 1 && CountRole(tail[1..], Legal) == 0;
  }

  // ---------------------------------------------------------------------
  // Address grouping of the document export

  /** Consecutive pairs joined with ", ": `slice(i, i + 2).join(", ")` for
      i = 0, 2, 4, ... */
  function GroupPairs(parts: seq<string>): (lines: seq<string>)
    ensures |lines| == (|parts| + 1) / 2
    decreases |parts|
  {
    if |parts| == 0 then []
    else if |parts| == 1 then [Join(parts[..1], ", ")]
    else [Join(parts[..2], ", ")] + GroupPairs(parts[2..])
  }

  /** `s.split(",").map(part => part.trim())`. */
  function AddressParts(address: string): (parts: seq<string>)
    ensures |parts| == Occurrences(address, ',') + 1
  {
    var raw := Split(address, ',');
    seq(|raw|, i requires 0 <= i < |raw| => Trim(raw[i]))
  }

  /** The sender address as the document export prints it. */
  function GroupAddress(address: string): seq<string>
  {
    GroupPairs(AddressParts(address))
  }

  /** Grouping loses and adds nothing: the lines joined with ", " are the parts
      joined with ", ". */
  lemma {:induction false} GroupPairsJoin(parts: seq<string>)
    ensures Join(GroupPairs(parts), ", ") == Join(parts, ", ")
    decreases |parts|
  {
    if |parts| == 2 {
      assert parts[..2] == parts;
    } else if |parts| > 2 {
      var rest := GroupPairs(parts[2..]);
      GroupPairsJoin(parts[2..]);
      assert parts[..2][1..] == [parts[1]];
      assert Join(parts[..2], ", ") == parts[0] + ", " + parts[1];
      assert ([Join(parts[..2], ", ")] + rest)[1..] == rest;
      assert parts[1..][1..] == parts[2..];
      assert Join(parts[1..], ", ") == parts[1] + ", " + Join(parts[2..], ", ");
    }
  }

  /** The grouped address has ceil(parts / 2) lines that re-join to the trimmed parts. */
  lemma GroupAddressShape(address: string)
    ensures |GroupAddress(address)| == (Occurrences(address, ',') + 2) / 2
    ensures Join(GroupAddress(address), ", ") == Join(AddressParts(address), ", ")
  {
    GroupPairsJoin(AddressParts(address));
  }

  /** An address without a comma is one line, the trimmed address. */
  lemma GroupAddressWithoutComma(address: string)
    requires ',' !in address
    ensures GroupAddress(address) == [Trim(address)]
  {
    SplitWithoutSeparator(address, ',');
    assert AddressParts(address) == [Trim(address)];
  }

  /** Three commas, none inside a part, split an address into its four parts. */
  lemma SplitFour(a: string, b: string, c: string, d: string)
    requires ',' !in a && ',' !in b && ',' !in c && ',' !in d
    ensures Split(a + [','] + (b + [','] + (c + [','] + d)), ',') == [a, b, c, d]
  {
    SplitWithoutSeparator(d, ',');
    SplitAtFirst(c, ',', d);
    SplitAtFirst(b, ',', c + [','] + d);
    SplitAtFirst(a, ',', b + [','] + (c + [','] + d));
  }

  /** An address that splits into four raw parts has those four parts, trimmed. */
  lemma PartsOfFour(address: string, a: string, b: string, c: string, d: string)
    requires Split(address, ',') == [a, b, c, d]
    ensures AddressParts(address) == [Trim(a), Trim(b), Trim(c), Trim(d)]
  {
  }

  /** A word with no whitespace at its ends survives trimming, with or without
      one space in front. */
  lemma TrimmedWord(x: string)
    requires |x| > 0 && !IsWhitespace(x[0]) && !IsWhitespace(x[|x| - 1])
    ensures Trim(x) == x && Trim([' '] + x) == x
  {
    TrimKeepsTrimmed(x);
    TrimDropsLeadingBlank(' ', x);
  }

  /** "Rue A, 75001, Paris, France" splits at its three commas. */
  lemma ExampleAddressSplit()
    ensures Split("Rue A, 75001, Paris, France", ',') == ["Rue A", " 75001", " Paris", " France"]
  {
    assert "Rue A, 75001, Paris, France"
      == "Rue A" + [','] + (" 75001" + [','] + (" Paris" + [','] + " France"));
    SplitFour("Rue A", " 75001", " Paris", " France");
  }

  lemma ExampleAddressParts()
    ensures AddressParts("Rue A, 75001, Paris, France") == ["Rue A", "75001", "Paris", "France"]
  {
    ExampleAddressSplit();
    PartsOfFour("Rue A, 75001, Paris, France", "Rue A", " 75001", " Paris", " France");
    ExampleTrims();
  }

  lemma ExampleTrims()
    ensures Trim("Rue A") == "Rue A" && Trim(" 75001") == "75001"
    ensures Trim(" Paris") == "Paris" && Trim(" France") == "France"
  {
    assert " 75001" == [' '] + "75001" && " Paris" == [' '] + "Paris" && " France" == [' '] + "France";
    assert !IsWhitespace('R') && !IsWhitespace('A') && !IsWhitespace('7') && !IsWhitespace('1');
    assert !IsWhitespace('P') && !IsWhitespace('s') && !IsWhitespace('F') && !IsWhitespace('e');
    TrimmedWords("Rue A", "75001", "Paris", "France");
  }

  lemma TrimmedWords(w0: string, w1: string, w2: string, w3: string)
    requires |w0| > 0 && !IsWhitespace(w0[0]) && !IsWhitespace(w0[|w0| - 1])
    requires |w1| > 0 && !IsWhitespace(w1[0]) && !IsWhitespace(w1[|w1| - 1])
    requires |w2| > 0 && !IsWhitespace(w2[0]) && !IsWhitespace(w2[|w2| - 1])
    requires |w3| > 0 && !IsWhitespace(w3[0]) && !IsWhitespace(w3[|w3| - 1])
    ensures Trim(w0) == w0 && Trim([' '] + w1) == w1 && Trim([' '] + w2) == w2 && Trim([' '] + w3) == w3
  {
    TrimmedWord(w0);
    TrimmedWord(w1);
    TrimmedWord(w2);
    TrimmedWord(w3);
  }

  /** "Rue A, 75001, Paris, France" is printed as two lines: split at the
      commas, trimmed, and paired. */
  lemma GroupAddressExample()
    ensures AddressParts("Rue A, 75001, Paris, France") == ["Rue A", "75001", "Paris", "France"]
    ensures GroupAddress("Rue A, 75001, Paris, France") == ["Rue A, 75001", "Paris, France"]
    ensures GroupPairs(["Rue A", "75001", "Paris", "France"]) == ["Rue A, 75001", "Paris, France"]
  {
    ExampleAddressParts();
    ExamplePairs();
  }

  lemma ExamplePairs()
    ensures GroupPairs(["Rue A", "75001", "Paris", "France"]) == ["Rue A, 75001", "Paris, France"]
  {
    var p := ["Rue A", "75001", "Paris", "France"];
    assert p[..2] == ["Rue A", "75001"] && p[2..] == ["Paris", "France"];
    assert p[2..][..2] == ["Paris", "France"] && p[2..][2..] == [];
    assert ["Rue A", "75001"][1..] == ["75001"];
    assert ["Paris", "France"][1..] == ["France"];
    assert Join(["Rue A", "75001"], ", ") == "Rue A, 75001";
    assert Join(["Paris", "France"], ", ") == "Paris, France";
    assert GroupPairs(p[2..]) == ["Paris, France"];
  }
}

=== FILE: invoice_pdf.dfy ===
/** The exported invoice document (the PDF page), as its sequence of labelled
    lines. The page is laid out from the resolved invoice and the two totals
    its caller computed; styling and pagination are outside the model. */
module InvoicePdf {
  import opened Wrappers
  import opened LineItems
  import opened Documents
  import opened Sections

  /** The legal identity printed at the bottom of every exported invoice. */
  const LegalIdentity: string :=
    "Micro-Entreprise - SIRET: 978 934 560 00019 - SIREN: 978 934 560 - RCS: Basse-Terre - APE/NAF: 6201Z - Num TVA: FR 70 978 934 560"

  /** The late-payment penalty notice printed below it. */
  const LatePaymentNotice: string :=
    "En cas de retard de paiement, une indemnité forfaitaire pour frais de recouvrement de 40 euros sera exigée (Décret n°2012-1115 du 2 octobre 2012)."

  function LegalDisclaimer(): seq<Line> {
    [Disclaimer(LegalIdentity), Disclaimer(LatePaymentNotice)]
  }

  /** The sender column: company name, the address regrouped two comma-separated
      parts per line, phone, e-mail. */
  function SenderLines(sender: Option<Sender>): (r: seq<Line>)
  {
    match sender
    case None => []
    case Some(s) =>
      When(s.companyName != "", CompanyName(s.companyName))
      + (if s.address != "" then AsAddressLines(GroupAddress(s.address)) else [])
      + When(s.phone != "", SenderPhone(s.phone))
      + When(s.email != "", SenderEmail(s.email))
  }

  /** The sender column shows the grouped address and, around it, the sender's
      identity lines; none of its lines shows a total. */
  lemma SenderLinesShape(sender: Option<Sender>)
    ensures AddressTexts(SenderLines(sender)) ==
      if sender.Some? && sender.value.address != "" then GroupAddress(sender.value.address) else []
    ensures ShowsSenderIdentity(WithoutAddress(SenderLines(sender)), sender)
  {
    if sender.Some? {
      var s := sender.value;
      var name := When(s.companyName != "", CompanyName(s.companyName));
      var addr := if s.address != "" then AsAddressLines(GroupAddress(s.address)) else [];
      var phone := When(s.phone != "", SenderPhone(s.phone));
      var email := When(s.email != "", SenderEmail(s.email));
      assert SenderLines(sender) == name + addr + phone + email;
      WhenNotAddress(s.companyName != "", CompanyName(s.companyName));
      WhenNotAddress(s.phone != "", SenderPhone(s.phone));
      WhenNotAddress(s.email != "", SenderEmail(s.email));
      SplitAddress(name, addr, phone, email);
    }
  }

  /** `InvoicePDF`. */
  function RenderPdf(inv: InvoiceView, totalHt: real, totalTtc: real): Document
  {
    Document(
      sender := SenderLines(inv.sender),
      heading := HeadingLines(inv),
      client := ClientLines(inv.client),
      table := TableLines(inv.items),
      totals := TotalsLines(inv.vatApplicable, totalHt, totalTtc),
      vatNote := VatNoteLines(inv.vatApplicable, inv.vatArticle),
      banking := BankingLines(BankingOf(inv.sender)),
      payment := [DueDateLine(inv.dueDate), PaymentMethodLine(inv.paymentMethod), ServiceFooter],
      notes := NotesLines(inv.notes),
      footer := LegalDisclaimer())
  }

  /** The page, section by section: the sender column with its address
      regrouped, the reference block, the client, the item table, the totals,
      the VAT note, the banking column, the payment terms followed by the
      service line, the notes, and the legal disclaimer at the bottom. */
  lemma PdfLayout(inv: InvoiceView, totalHt: real, totalTtc: real) returns (d: Document)
    ensures d == RenderPdf(inv, totalHt, totalTtc)
    ensures AddressTexts(d.sender) ==
      if inv.sender.Some? && inv.sender.value.address != "" then GroupAddress(inv.sender.value.address) else []
    ensures ShowsSenderIdentity(WithoutAddress(d.sender), inv.sender)
    ensures ShowsHeading(d.heading, inv)
    ensures ShowsClient(d.client, inv.client)
    ensures ShowsItems(d.table, inv.items)
    ensures ShowsTotals(d.totals, inv.vatApplicable, totalHt, totalTtc)
    ensures ShowsVatNote(d.vatNote, inv.vatApplicable, inv.vatArticle)
    ensures ShowsBanking(d.banking, BankingOf(inv.sender))
    ensures d.payment == [DueDateLine(inv.dueDate), PaymentMethodLine(inv.paymentMethod), ServiceFooter]
    ensures ShowsNotes(d.notes, inv.notes)
    ensures d.footer == LegalDisclaimer()
  {
    d := RenderPdf(inv, totalHt, totalTtc);
    SenderLinesShape(inv.sender);
    BankingLinesShape(BankingOf(inv.sender));
  }

  /** Outside the totals block no line of the page shows TTC. */
  lemma SenderIsBody(sender: Option<Sender>)
    ensures AllBody(SenderLines(sender))
  {
    if sender.Some? {
      var s := sender.value;
      var name := When(s.companyName != "", CompanyName(s.companyName));
      var addr := if s.address != "" then AsAddressLines(GroupAddress(s.address)) else [];
      var phone := When(s.phone != "", SenderPhone(s.phone));
      var email := When(s.email != "", SenderEmail(s.email));
      WhenIsBody(s.companyName != "", CompanyName(s.companyName));
      WhenIsBody(s.phone != "", SenderPhone(s.phone));
      WhenIsBody(s.email != "", SenderEmail(s.email));
      assert AllBody(addr) by {
        if s.address != "" {
          var texts := GroupAddress(s.address);
          assert forall i :: 0 <= i < |addr| ==> addr[i] == SenderAddress(texts[i]);
        }
      }
      FourBody(name, addr, phone, email);
      assert SenderLines(sender) == name + addr + phone + email;
    }
  }

  lemma PdfSectionsAreBody(inv: InvoiceView, totalHt: real, totalTtc: real)
    ensures var d := RenderPdf(inv, totalHt, totalTtc);
      AllBody(d.sender) && AllBody(d.heading) && AllBody(d.client) && AllBody(d.table)
      && AllBody(d.vatNote) && AllBody(d.banking) && AllBody(d.payment) && AllBody(d.notes)
  {
    SenderIsBody(inv.sender);
    SmallSectionsAreBody(inv);
    TableIsBody(inv.items);
    BankingIsBody(BankingOf(inv.sender));
  }

  /** On every page, "Total Net TTC" and "Net à payer" are the only lines
      showing TTC, and the two lines of the legal disclaimer are printed once. */
  lemma PdfSpecialLines(inv: InvoiceView, totalHt: real, totalTtc: real)
    ensures CountRole(Lines(RenderPdf(inv, totalHt, totalTtc)), Ttc) == 2
    ensures CountRole(Lines(RenderPdf(inv, totalHt, totalTtc)), Legal) == 2
  {
    var d := RenderPdf(inv, totalHt, totalTtc);
    PdfSectionsAreBody(inv, totalHt, totalTtc);
    TotalsCounts(d.totals, inv.vatApplicable, totalHt, totalTtc);
    SpecialLinesOf(d, Ttc);
    SpecialLinesOf(d, Legal);
    assert d.footer[1..][1..] == [];
  }
}

=== FILE: invoice_preview.dfy ===
/** The on-screen invoice preview, as its sequence of labelled lines. It shows
    the same invoice as the exported document with three differences of
    layout: the sender address is printed as stored, on one line; the
    "Prestation de service" line comes after the notes; and there is no legal
    disclaimer. */
module InvoicePreview {
  import opened Wrappers
  import opened LineItems
  import opened Documents
  import opened Sections

  /** `InvoicePreview`. */
  function RenderPreview(inv: InvoiceView, totalHt: real, totalTtc: real): Document
  {
    Document(
      sender := PreviewSender(inv.sender),
      heading := HeadingLines(inv),
      client := ClientLines(inv.client),
      table := TableLines(inv.items),
      totals := TotalsLines(inv.vatApplicable, totalHt, totalTtc),
      vatNote := VatNoteLines(inv.vatApplicable, inv.vatArticle),
      banking := BankingLines(BankingOf(inv.sender)),
      payment := [DueDateLine(inv.dueDate), PaymentMethodLine(inv.paymentMethod)],
      notes := NotesLines(inv.notes),
      footer := [ServiceFooter])
  }

  /** The preview, section by section: the same sections as the exported
      page, except that the sender address is one verbatim line, the payment
      terms stop before the service line, and the service line closes the
      preview in place of the disclaimer. */
  lemma PreviewLayout(inv: InvoiceView, totalHt: real, totalTtc: real) returns (d: Document)
    ensures d == RenderPreview(inv, totalHt, totalTtc)
    ensures AddressTexts(d.sender) ==
      if inv.sender.Some? && inv.sender.value.address != "" then [inv.sender.value.address] else []
    ensures ShowsSenderIdentity(WithoutAddress(d.sender), inv.sender)
    ensures ShowsHeading(d.heading, inv)
    ensures ShowsClient(d.client, inv.client)
    ensures ShowsItems(d.table, inv.items)
    ensures ShowsTotals(d.totals, inv.vatApplicable, totalHt, totalTtc)
    ensures ShowsVatNote(d.vatNote, inv.vatApplicable, inv.vatArticle)
    ensures ShowsBanking(d.banking, BankingOf(inv.sender))
    ensures d.payment == [DueDateLine(inv.dueDate), PaymentMethodLine(inv.paymentMethod)]
    ensures ShowsNotes(d.notes, inv.notes)
    ensures d.footer == [ServiceFooter]
  {
    d := RenderPreview(inv, totalHt, totalTtc);
    PreviewSenderShape(inv.sender);
    BankingLinesShape(BankingOf(inv.sender));
  }

  /** The sender column of the preview: the address is one line, verbatim. */
  function PreviewSender(sender: Option<Sender>): seq<Line>
  {
    match sender
    case None => []
    case Some(s) =>
      When(s.companyName != "", CompanyName(s.companyName))
      + When(s.address != "", SenderAddress(s.address))
      + When(s.phone != "", SenderPhone(s.phone))
      + When(s.email != "", SenderEmail(s.email))
  }

  lemma PreviewSenderShape(sender: Option<Sender>)
    ensures AddressTexts(PreviewSender(sender)) ==
      if sender.Some? && sender.value.address != "" then [sender.value.address] else []
    ensures ShowsSenderIdentity(WithoutAddress(PreviewSender(sender)), sender)
  {
    if sender.Some? {
      var s := sender.value;
      var name := When(s.companyName != "", CompanyName(s.companyName));
      var addr := When(s.address != "", SenderAddress(s.address));
      var phone := When(s.phone != "", SenderPhone(s.phone));
      var email := When(s.email != "", SenderEmail(s.email));
      assert PreviewSender(sender) == name + addr + phone + email;
      WhenNotAddress(s.companyName != "", CompanyName(s.companyName));
      WhenNotAddress(s.phone != "", SenderPhone(s.phone));
      WhenNotAddress(s.email != "", SenderEmail(s.email));
      WhenAddress(s.address != "", s.address);
      SplitAddress(name, addr, phone, email);
    }
  }

  lemma PreviewSenderIsBody(sender: Option<Sender>)
    ensures AllBody(PreviewSender(sender))
  {
    if sender.Some? {
      var s := sender.value;
      var name := When(s.companyName != "", CompanyName(s.companyName));
      var addr := When(s.address != "", SenderAddress(s.address));
      var phone := When(s.phone != "", SenderPhone(s.phone));
      var email := When(s.email != "", SenderEmail(s.email));
      WhenIsBody(s.companyName != "", CompanyName(s.companyName));
      WhenIsBody(s.address != "", SenderAddress(s.address));
      WhenIsBody(s.phone != "", SenderPhone(s.phone));
      WhenIsBody(s.email != "", SenderEmail(s.email));
      FourBody(name, addr, phone, email);
      assert PreviewSender(sender) == name + addr + phone + email;
    }
  }

  lemma PreviewSectionsAreBody(inv: InvoiceView, totalHt: real, totalTtc: real)
    ensures var d := RenderPreview(inv, totalHt, totalTtc);
      AllBody(d.sender) && AllBody(d.heading) && AllBody(d.client) && AllBody(d.table)
      && AllBody(d.vatNote) && AllBody(d.banking) && AllBody(d.payment) && AllBody(d.notes)
      && AllBody(d.footer)
  {
    PreviewPartsAreBody(inv);
  }

  lemma PreviewPartsAreBody(inv: InvoiceView)
    ensures AllBody(PreviewSender(inv.sender)) && AllBody(HeadingLines(inv))
      && AllBody(ClientLines(inv.client)) && AllBody(TableLines(inv.items))
      && AllBody(VatNoteLines(inv.vatApplicable, inv.vatArticle))
      && AllBody(BankingLines(BankingOf(inv.sender))) && AllBody(NotesLines(inv.notes))
  {
    PreviewSenderIsBody(inv.sender);
    SmallSectionsAreBody(inv);
    TableIsBody(inv.items);
    BankingIsBody(BankingOf(inv.sender));
  }

  /** The preview, too, shows TTC on exactly two lines, and never the legal
      disclaimer. */
  lemma PreviewSpecialLines(inv: InvoiceView, totalHt: real, totalTtc: real)
    ensures CountRole(Lines(RenderPreview(inv, totalHt, totalTtc)), Ttc) == 2
    ensures CountRole(Lines(RenderPreview(inv, totalHt, totalTtc)), Legal) == 0
  {
    var d := RenderPreview(inv, totalHt, totalTtc);
    PreviewSectionsAreBody(inv, totalHt, totalTtc);
    BodyCountsNothing(d.footer, Ttc);
    BodyCountsNothing(d.footer, Legal);
    TotalsCounts(d.totals, inv.vatApplicable, totalHt, totalTtc);
    SpecialLinesOf(d, Ttc);
    SpecialLinesOf(d, Legal);
  }
}

=== FILE: invoice_status.dfy ===
/** The invoice status engine. Statuses are the raw strings the application
    stores and compares (`draft`, `sent`, `paid`, `overdue`, possibly others);
    dates are whole day numbers and "today" is an explicit parameter, so the
    local-midnight normalisation of the application becomes plain integer
    comparison. */
module InvoiceStatus {

  type Day = int

  const Draft: string := "draft"
  const Sent: string := "sent"
  const Paid: string := "paid"
  const Overdue: string := "overdue"

  /** The statuses the status engine can produce (the stored status union). */
  predicate IsKnownStatus(s: string) {
    s == Draft || s == Sent || s == Paid || s == Overdue
  }

  /** `isOverdue`: a paid invoice is never overdue; any other is overdue once its
      due day lies strictly before today (the due day itself is not late). */
  function IsOverdue(dueDate: Day, status: string, today: Day): (r: bool)
    ensures status == Paid ==> !r
    ensures status != Paid ==> (r <==> dueDate < today)
  {
    if status == Paid then false else dueDate < today
  }

  /** `calculateInvoiceStatus`: the status to store after a paid/unpaid action. */
  function CalculateInvoiceStatus(dueDate: Day, currentStatus: string, isPaid: bool, today: Day): (r: string)
    ensures IsKnownStatus(r)
    ensures r == Paid <==> isPaid || currentStatus == Paid
    ensures r == Overdue <==> !isPaid && currentStatus != Paid && dueDate < today
    ensures r == Draft <==> !isPaid && currentStatus == Draft && today <= dueDate
    ensures r == Sent <==> !isPaid && currentStatus != Paid && currentStatus != Draft && today <= dueDate
  {
    if isPaid then Paid
    else if currentStatus == Paid then Paid
    else if IsOverdue(dueDate, currentStatus, today) then Overdue
    else if currentStatus == Draft then Draft
    else Sent
  }

  /** Recomputing an unpaid status on the same day changes nothing. */
  lemma StatusIdempotent(dueDate: Day, s: string, today: Day)
    ensures var once := CalculateInvoiceStatus(dueDate, s, false, today);
      CalculateInvoiceStatus(dueDate, once, false, today) == once
  {
  }

  /** Once overdue, an invoice stays overdue on every later day. */
  lemma OverdueMonotone(dueDate: Day, status: string, today: Day, later: Day)
    requires IsOverdue(dueDate, status, today)
    requires today <= later
    ensures IsOverdue(dueDate, status, later)
  {
  }

  /** The computed status and `isOverdue` agree: for an unpaid invoice the
      result is `overdue` exactly when `isOverdue` holds of its current status,
      and the result is overdue according to `isOverdue` exactly when it is
      `overdue`, so a status this function stores is never paid-and-late or
      stale draft/sent. */
  lemma StoredStatusAgreesWithIsOverdue(dueDate: Day, s: string, isPaid: bool, today: Day)
    ensures var r := CalculateInvoiceStatus(dueDate, s, isPaid, today);
      !isPaid ==> (r == Overdue <==> IsOverdue(dueDate, s, today))
    ensures var r := CalculateInvoiceStatus(dueDate, s, isPaid, today);
      IsOverdue(dueDate, r, today) <==> r == Overdue
  {
  }

  /** Worked scenario: due day 0, sent, seen 31 days later, is overdue; once
      marked paid it is paid and no longer overdue although the due day is unchanged. */
  lemma OverdueThenPaidScenario()
    ensures CalculateInvoiceStatus(0, Sent, false, 31) == Overdue
    ensures CalculateInvoiceStatus(0, Overdue, true, 31) == Paid
    ensures !IsOverdue(0, CalculateInvoiceStatus(0, Overdue, true, 31), 31)
  {
  }
}

=== FILE: invoice_submit.dfy ===
/** What the invoice form does when it is submitted, without the store calls:
    the checks that stop a save, the version bump of an edited invoice and the
    rows written for its line items. */
module InvoiceSubmit {
  import opened Wrappers
  import opened Strings
  import opened References
  import opened LineItems

  /** The reasons a submit stops before anything is written, in the order the
      form checks them. */
  datatype SubmitError =
    | NotLoggedIn
    | NoClientSelected
    | MissingReference
    | NoValidLineItem

  function ErrorMessage(e: SubmitError): string {
    match e
    case NotLoggedIn => "You must be logged in"
    case NoClientSelected => "Please select a client"
    case MissingReference => "Invoice reference is required"
    case NoValidLineItem => "Please add at least one valid line item"
  }

  /** Each refusal has its own message, so the user can tell them apart. */
  lemma ErrorMessagesDistinct(e: SubmitError, f: SubmitError)
    ensures ErrorMessage(e) == ErrorMessage(f) <==> e == f
  {
  }

  /** The form state the checks read. `editing` is true for an existing invoice;
      `clientId` and `reference` are "" when not filled in. */
  datatype SubmitInput = SubmitInput(
    loggedIn: bool,
    editing: bool,
    clientId: string,
    reference: string,
    items: seq<Item>)

  /** A row that cannot be saved: no description, or a total of exactly zero. */
  predicate IsIncomplete(item: Item) {
    item.description == "" || item.totalHt == 0.0
  }

  /** The line items are refused: none at all, or some incomplete row. */
  predicate ItemsRefused(items: seq<Item>) {
    |items| == 0 || exists i :: 0 <= i < |items| && IsIncomplete(items[i])
  }

  /** `items.some(...)`, scanning the rows in order. */
  method HasIncompleteItem(items: seq<Item>) returns (found: bool)
    ensures found <==> exists i :: 0 <= i < |items| && IsIncomplete(items[i])
  {
    found := false;
    var i := 0;
    while i < |items| && !found
      invariant 0 <= i <= |items|
      invariant found <==> exists k :: 0 <= k < i && IsIncomplete(items[k])
    {
      found := IsIncomplete(items[i]);
      i := i + 1;
    }
  }

  /** The submit-time checks of the form, first failure wins. A reference made
      only of whitespace counts as missing (it is trimmed); a description made
      only of whitespace does not (it is not). */
  function ValidateSubmit(input: SubmitInput): (r: Option<SubmitError>)
    ensures r == None <==>
      input.loggedIn && input.clientId != "" && (input.editing ==> !IsBlank(input.reference))
      && !ItemsRefused(input.items)
    ensures r == Some(NotLoggedIn) <==> !input.loggedIn
    ensures r == Some(NoClientSelected) <==> input.loggedIn && input.clientId == ""
    ensures r == Some(MissingReference) <==>
      input.loggedIn && input.clientId != "" && input.editing && IsBlank(input.reference)
    ensures r == Some(NoValidLineItem) <==>
      input.loggedIn && input.clientId != "" && (input.editing ==> !IsBlank(input.reference))
      && ItemsRefused(input.items)
  {
    if !input.loggedIn then Some(NotLoggedIn)
    else if input.clientId == "" then Some(NoClientSelected)
    else if input.editing && Trim(input.reference) == "" then Some(MissingReference)
    else if ItemsRefused(input.items) then Some(NoValidLineItem)
    else None
  }

  /** A whitespace-only description passes the check, an empty one does not. */
  lemma DescriptionNotTrimmed(total: real)
    requires total != 0.0
    ensures !ItemsRefused([Item(" ", "", 1.0, total, total, 0)])
    ensures ItemsRefused([Item("", "", 1.0, total, total, 0)])
  {
    var bad := [Item("", "", 1.0, total, total, 0)];
    assert IsIncomplete(bad[0]);
  }

  /** A reference made only of an ideographic space is blank after trimming,
      so an edited invoice with it is refused as missing its reference. */
  lemma IdeographicSpaceReferenceMissing(items: seq<Item>)
    ensures ValidateSubmit(SubmitInput(true, true, "c1", "\U{3000}", items)) == Some(MissingReference)
  {
    assert IsBlank("\U{3000}") by {
      assert IsWhitespace("\U{3000}"[0]);
    }
  }

  /** The one-line form a new invoice opens with cannot be saved as it is. */
  lemma InitialItemsRefused()
    ensures ItemsRefused(InitialItems())
  {
    assert IsIncomplete(InitialItems()[0]);
  }

  // ---------------------------------------------------------------------
  // Version numbers

  /** The version stored on an invoice when it has none. */
  const FirstVersion: string := "1.0"

  /** Reads a version written with at most one fractional digit ("2", "1.9"),
      as a number of tenths; any other text is not a version. */
  function ParseVersion(v: string): Option<nat>
  {
    if |v| > 0 && AllDigits(v) then Some(DigitsValue(v) * 10)
    else if |v| >= 3 && v[|v| - 2] == '.' && IsDigit(v[|v| - 1]) && AllDigits(v[..|v| - 2]) then
      Some(DigitsValue(v[..|v| - 2]) * 10 + DigitValue(v[|v| - 1]))
    else None
  }

  /** `toFixed(1)` of a non-negative number of tenths. */
  function FormatVersion(tenths: nat): string
  {
    Decimal(tenths / 10) + ['.', DigitChar(tenths % 10)]
  }

  /** Formatting and parsing are inverse: a formatted version reads back exactly. */
  lemma VersionRoundTrip(tenths: nat)
    ensures ParseVersion(FormatVersion(tenths)) == Some(tenths)
  {
    var v := FormatVersion(tenths);
    var whole := Decimal(tenths / 10);
    assert v[..|v| - 2] == whole;
    assert v[|v| - 2] == '.';
    assert !AllDigits(v);
    DecimalValue(tenths / 10);
  }

  /** The version written when an existing invoice is saved: the stored one
      (or "1.0" when there is none) plus one tenth. */
  function NextVersion(stored: string): (r: Option<string>)
    ensures ParseVersion(if stored == "" then FirstVersion else stored).Some? <==> r.Some?
    ensures r.Some? ==>
      ParseVersion(r.value) == Some(ParseVersion(if stored == "" then FirstVersion else stored).value + 1)
  {
    var current := if stored == "" then FirstVersion else stored;
    match ParseVersion(current)
    case Some(t) => VersionRoundTrip(t + 1); Some(FormatVersion(t + 1))
    case None => None
  }

  /** Every save moves the version up by exactly one tenth. */
  lemma NextVersionIncrements(tenths: nat)
    ensures NextVersion(FormatVersion(tenths)) == Some(FormatVersion(tenths + 1))
    ensures ParseVersion(NextVersion(FormatVersion(tenths)).value) == Some(tenths + 1)
  {
    VersionRoundTrip(tenths);
    VersionRoundTrip(tenths + 1);
    assert FormatVersion(tenths) != "";
  }

  /** "1.0" becomes "1.1". */
  lemma NextVersionFromFirst()
    ensures NextVersion("1.0") == Some("1.1")
  {
    assert Decimal(1) == "1";
    assert FormatVersion(10) == "1.0";
    assert FormatVersion(11) == "1.1";
    NextVersionIncrements(10);
  }

  /** "1.9" becomes "2.0": the carry goes into the whole part. */
  lemma NextVersionCarries()
    ensures NextVersion("1.9") == Some("2.0")
  {
    assert Decimal(1) == "1" && Decimal(2) == "2";
    assert FormatVersion(19) == "1.9";
    assert FormatVersion(20) == "2.0";
    NextVersionIncrements(19);
  }

  /** An invoice without a version is treated as "1.0". */
  lemma NextVersionWhenMissing()
    ensures NextVersion("") == Some("1.1")
  {
    NextVersionFromFirst();
  }

  // ---------------------------------------------------------------------
  // Saved line items

  /** A line-item row as written to the store; the optional text is `None`
      where the form had an empty one. */
  datatype StoredItem = StoredItem(
    invoiceId: string,
    description: string,
    additionalInfo: Option<string>,
    unitPriceHt: real,
    quantity: real,
    totalHt: real,
    orderIndex: nat)

  function StoreItem(invoiceId: string, item: Item, position: nat): StoredItem
  {
    StoredItem(invoiceId, item.description,
               if item.additionalInfo == "" then None else Some(item.additionalInfo),
               item.unitPriceHt, item.quantity, item.totalHt, position)
  }

  /** `itemsToInsert`: every row, in form order, numbered by its position
      whatever order index it carried in the form. */
  function ItemsToInsert(invoiceId: string, items: seq<Item>): (r: seq<StoredItem>)
    ensures |r| == |items|
    ensures forall i :: 0 <= i < |r| ==> r[i].orderIndex == i && r[i].invoiceId == invoiceId
    ensures forall i :: 0 <= i < |r| ==>
      r[i].description == items[i].description && r[i].unitPriceHt == items[i].unitPriceHt
      && r[i].quantity == items[i].quantity && r[i].totalHt == items[i].totalHt
    ensures forall i :: 0 <= i < |r| ==>
      (r[i].additionalInfo == None <==> items[i].additionalInfo == "")
  {
    seq(|items|, i requires 0 <= i < |items| => StoreItem(invoiceId, items[i], i))
  }

  /** The rows of an invoice as loaded back, ordered by their order index. */
  function LoadItem(s: StoredItem): Item
  {
    Item(s.description, s.additionalInfo.GetOr(""), s.unitPriceHt, s.quantity, s.totalHt, s.orderIndex)
  }

  function LoadItems(rows: seq<StoredItem>): (r: seq<Item>)
    ensures |r| == |rows|
    ensures forall i :: 0 <= i < |rows| ==> r[i] == LoadItem(rows[i])
  {
    seq(|rows|, i requires 0 <= i < |rows| => LoadItem(rows[i]))
  }

  /** The saved rows are strictly ordered by order index, so loading them back
      sorted by that index keeps the form's order. */
  lemma SavedRowsOrdered(invoiceId: string, items: seq<Item>)
    ensures forall i, j :: 0 <= i < j < |items| ==>
      ItemsToInsert(invoiceId, items)[i].orderIndex < ItemsToInsert(invoiceId, items)[j].orderIndex
  {
  }

  predicate NumberedByPosition(items: seq<Item>) {
    forall i :: 0 <= i < |items| ==> items[i].orderIndex == i
  }

  /** Saving then loading gives back the form's rows with only the order index
      replaced by the position; rows already numbered by position come back unchanged. */
  lemma SaveLoadRoundTrip(invoiceId: string, items: seq<Item>)
    ensures var back := LoadItems(ItemsToInsert(invoiceId, items));
      |back| == |items| && NumberedByPosition(back)
      && forall i :: 0 <= i < |items| ==> back[i] == items[i].(orderIndex := i)
    ensures NumberedByPosition(items) ==> LoadItems(ItemsToInsert(invoiceId, items)) == items
  {
    var back := LoadItems(ItemsToInsert(invoiceId, items));
    if NumberedByPosition(items) {
      assert forall i :: 0 <= i < |items| ==> back[i] == items[i];
    }
  }

  /** The sum only depends on the line totals. */
  lemma {:induction false} SumHtSameTotals(a: seq<Item>, b: seq<Item>)
    requires |a| == |b|
    requires forall i :: 0 <= i < |a| ==> a[i].totalHt == b[i].totalHt
    ensures SumHt(a) == SumHt(b)
    decreases |a|
  {
    if |a| > 0 {
      SumHtSameTotals(a[..|a| - 1], b[..|b| - 1]);
    }
  }

  /** Saving does not change the invoice total. */
  lemma SaveKeepsTotal(invoiceId: string, items: seq<Item>)
    ensures SumHt(LoadItems(ItemsToInsert(invoiceId, items))) == SumHt(items)
  {
    SumHtSameTotals(LoadItems(ItemsToInsert(invoiceId, items)), items);
  }

  /** In the form, removing then adding rows can repeat an order index
      (`[0, 1, 2]` without its first row, plus a new one, is `[1, 2, 2]`);
      the saved rows are numbered 0, 1, 2 all the same. */
  lemma InMemoryIndexMayRepeat()
    ensures var items := AddItem(RemoveItem([BlankItem(0), BlankItem(1), BlankItem(2)], 0));
      items[1].orderIndex == items[2].orderIndex == 2
      && ItemsToInsert("inv", items)[2].orderIndex == 2
      && ItemsToInsert("inv", items)[1].orderIndex == 1
  {
  }
}

=== FILE: line_items.dfy ===
/** Line items as the invoice form edits them: per-item editing, adding and
    removing rows, the HT sum and the TTC/VAT derivation. Money is an exact
    `real`: the application stores the raw product `unit price × quantity` and
    only rounds when it displays a value. */
module LineItems {
  import opened Wrappers

  /** An invoice line. `additionalInfo` is "" when the optional text is absent. */
  datatype Item = Item(
    description: string,
    additionalInfo: string,
    unitPriceHt: real,
    quantity: real,
    totalHt: real,
    orderIndex: int)

  /** The edits the form performs on one field of one line. */
  datatype Edit =
    | SetDescription(text: string)
    | SetAdditionalInfo(info: string)
    | SetUnitPrice(price: real)
    | SetQuantity(amount: real)

  /** Price times quantity, the extended total of a line (never rounded). */
  function LineTotal(unitPriceHt: real, quantity: real): real {
    unitPriceHt * quantity
  }

  /** The stored total of the line equals price times quantity. */
  predicate Consistent(item: Item) {
    item.totalHt == LineTotal(item.unitPriceHt, item.quantity)
  }

  predicate AllConsistent(items: seq<Item>) {
    forall i :: 0 <= i < |items| ==> Consistent(items[i])
  }

  /** The empty row the form adds: no description, price 0, quantity 1, total 0. */
  function BlankItem(orderIndex: int): (r: Item)
    ensures Consistent(r) && r.description == "" && r.totalHt == 0.0
    ensures r.additionalInfo == "" && r.unitPriceHt == 0.0 && r.quantity == 1.0
    ensures r.orderIndex == orderIndex
  {
    Item("", "", 0.0, 1.0, 0.0, orderIndex)
  }

  /** The rows a new invoice starts with. */
  function InitialItems(): (r: seq<Item>)
    ensures |r| == 1 && AllConsistent(r)
    ensures r[0] == BlankItem(0)
  {
    [BlankItem(0)]
  }

  /** One field edit. Changing the price or the quantity recomputes the line's
      total from the new price and quantity; changing a text leaves the total
      (and the numbers) alone; nothing touches the order index. */
  function ApplyEdit(item: Item, e: Edit): (r: Item)
    ensures r.orderIndex == item.orderIndex
    ensures (e.SetUnitPrice? || e.SetQuantity?) ==> Consistent(r)
    ensures (e.SetUnitPrice? || e.SetQuantity?) ==>
      r.description == item.description && r.additionalInfo == item.additionalInfo
    ensures e.SetUnitPrice? ==> r.unitPriceHt == e.price && r.quantity == item.quantity
    ensures e.SetQuantity? ==> r.quantity == e.amount && r.unitPriceHt == item.unitPriceHt
    ensures (e.SetDescription? || e.SetAdditionalInfo?) ==>
      r.totalHt == item.totalHt && r.unitPriceHt == item.unitPriceHt && r.quantity == item.quantity
    ensures e.SetDescription? ==> r.description == e.text && r.additionalInfo == item.additionalInfo
    ensures e.SetAdditionalInfo? ==> r.additionalInfo == e.info && r.description == item.description
    ensures Consistent(item) ==> Consistent(r)
  {
    match e
    case SetDescription(t) => item.(description := t)
    case SetAdditionalInfo(t) => item.(additionalInfo := t)
    case SetUnitPrice(p) => item.(unitPriceHt := p, totalHt := LineTotal(p, item.quantity))
    case SetQuantity(q) => item.(quantity := q, totalHt := LineTotal(item.unitPriceHt, q))
  }

  /** `updateItem`: only the line at `index` changes. */
  function UpdateItem(items: seq<Item>, index: nat, e: Edit): (r: seq<Item>)
    requires index < |items|
    ensures |r| == |items|
    ensures forall j :: 0 <= j < |items| && j != index ==> r[j] == items[j]
    ensures r[index] == ApplyEdit(items[index], e)
  {
    items[index := ApplyEdit(items[index], e)]
  }

  /** `addItem`: one blank row appended, numbered after the existing rows. */
  function AddItem(items: seq<Item>): (r: seq<Item>)
    ensures |r| == |items| + 1
    ensures r[..|items|] == items
    ensures r[|items|] == BlankItem(|items|)
  {
    items + [BlankItem(|items|)]
  }

  /** `removeItem`: keep every row whose position differs from `index`. */
  function RemoveItem(items: seq<Item>, index: int): (r: seq<Item>)
    ensures 0 <= index < |items| ==> r == items[..index] + items[index + 1..]
    ensures !(0 <= index < |items|) ==> r == items
  {
    if |items| == 0 then []
    else (if index == 0 then [] else [items[0]]) + RemoveItem(items[1..], index - 1)
  }

  /** `calculateTotal`: the left-to-right sum of the line totals. */
  function SumHt(items: seq<Item>): real
  {
    if |items| == 0 then 0.0 else SumHt(items[..|items| - 1]) + items[|items| - 1].totalHt
  }

  lemma {:induction false} SumHtAppend(a: seq<Item>, b: seq<Item>)
    ensures SumHt(a + b) == SumHt(a) + SumHt(b)
    decreases |b|
  {
    if |b| == 0 {
      assert a + b == a;
    } else {
      assert (a + b)[..|a + b| - 1] == a + b[..|b| - 1];
      assert (a + b)[|a + b| - 1] == b[|b| - 1];
      SumHtAppend(a, b[..|b| - 1]);
    }
  }

  /** The sum is `reduce((sum, item) => sum + item.total_ht, 0)`, computed in a loop. */
  method CalculateTotal(items: seq<Item>) returns (total: real)
    ensures total == SumHt(items)
  {
    total := 0.0;
    var i := 0;
    while i < |items|
      invariant 0 <= i <= |items|
      invariant total == SumHt(items[..i])
    {
      assert items[..i + 1][..i] == items[..i];
      total := total + items[i].totalHt;
      i := i + 1;
    }
    assert items[..|items|] == items;
  }

  /** Editing one line moves the sum by exactly that line's change of total. */
  lemma UpdateItemSum(items: seq<Item>, index: nat, e: Edit)
    requires index < |items|
    ensures SumHt(UpdateItem(items, index, e))
            == SumHt(items) - items[index].totalHt + ApplyEdit(items[index], e).totalHt
  {
    ReplaceSum(items, index, ApplyEdit(items[index], e));
  }

  lemma ReplaceSum(items: seq<Item>, index: nat, x: Item)
    requires index < |items|
    ensures SumHt(items[index := x]) == SumHt(items) - items[index].totalHt + x.totalHt
  {
    var pre, post := items[..index], items[index + 1..];
    assert items == pre + [items[index]] + post;
    assert items[index := x] == pre + [x] + post;
    SumHtAppend(pre + [items[index]], post);
    SumHtAppend(pre, [items[index]]);
    SumHtAppend(pre + [x], post);
    SumHtAppend(pre, [x]);
    assert SumHt([x]) == x.totalHt by {
      assert [x][..0] == [];
    }
    assert SumHt([items[index]]) == items[index].totalHt by {
      assert [items[index]][..0] == [];
    }
  }

  /** Adding a blank row leaves the sum unchanged. */
  lemma AddItemSum(items: seq<Item>)
    ensures SumHt(AddItem(items)) == SumHt(items)
  {
    SumHtAppend(items, [BlankItem(|items|)]);
  }

  /** Removing a row takes exactly its total off the sum. */
  lemma RemoveItemSum(items: seq<Item>, index: nat)
    requires index < |items|
    ensures SumHt(RemoveItem(items, index)) == SumHt(items) - items[index].totalHt
  {
    var pre, x, post := items[..index], items[index], items[index + 1..];
    assert items == pre + [x] + post;
    assert RemoveItem(items, index) == pre + post;
    SumHtAppend(pre + [x], post);
    SumHtAppend(pre, [x]);
    SumHtAppend(pre, post);
    assert SumHt([x]) == x.totalHt by {
      assert [x][..0] == [];
    }
  }

  /** Every line edited, added or removed through the form keeps price × quantity
      as its total, so rows built from the initial blank row are all consistent. */
  lemma EditingKeepsConsistency(items: seq<Item>, index: nat, e: Edit)
    requires AllConsistent(items)
    ensures AllConsistent(AddItem(items))
    ensures index < |items| ==> AllConsistent(UpdateItem(items, index, e))
    ensures AllConsistent(RemoveItem(items, index))
  {
  }

  /** TVA rate of 20%, as the factor applied to HT. */
  const VatFactor: real := 1.2

  /** `totalTTC`: HT plus 20% when VAT applies, HT otherwise. */
  function TotalTtc(totalHt: real, vatApplicable: bool): (r: real)
    ensures vatApplicable ==> r == totalHt + totalHt / 5.0
    ensures !vatApplicable ==> r == totalHt
  {
    if vatApplicable then totalHt * VatFactor else totalHt
  }

  /** The VAT amount line of the totals block: `TTC − HT`, shown only when VAT applies. */
  function VatAmount(totalHt: real, vatApplicable: bool): (r: Option<real>)
    ensures r.Some? <==> vatApplicable
    ensures r.Some? ==> r.value == totalHt / 5.0 && totalHt + r.value == TotalTtc(totalHt, vatApplicable)
  {
    if vatApplicable then Some(TotalTtc(totalHt, vatApplicable) - totalHt) else None
  }

  /** The form's totals panel: HT, the optional TVA line and TTC. */
  datatype TotalsPanel = TotalsPanel(totalHt: real, vat: Option<real>, totalTtc: real)

  function FormTotals(items: seq<Item>, vatApplicable: bool): (r: TotalsPanel)
    ensures r.totalHt == SumHt(items)
    ensures r.vat.Some? <==> vatApplicable
    ensures r.totalTtc == r.totalHt + r.vat.GetOr(0.0)
    ensures r.vat.Some? ==> r.vat.value == r.totalHt / 5.0
    ensures r.totalTtc == if vatApplicable then VatFactor * r.totalHt else r.totalHt
  {
    var ht := SumHt(items);
    TotalsPanel(ht, VatAmount(ht, vatApplicable), TotalTtc(ht, vatApplicable))
  }

  /** Worked scenario: one line at 100 × 2.5 totals 250 HT, 300 TTC with VAT. */
  lemma TotalsScenario()
    ensures var item := ApplyEdit(ApplyEdit(BlankItem(0), SetUnitPrice(100.0)), SetQuantity(2.5));
      item.totalHt == 250.0 && FormTotals([item], true) == TotalsPanel(250.0, Some(50.0), 300.0)
  {
    var item := ApplyEdit(ApplyEdit(BlankItem(0), SetUnitPrice(100.0)), SetQuantity(2.5));
    assert SumHt([item]) == SumHt([]) + item.totalHt;
  }
}

=== FILE: references.dfy ===
/** Human-readable references for invoices (`F-000067`) and clients
    (`C-000001`): a one-letter prefix, a dash and the sequence number written
    in decimal, left-padded with zeros to at least six digits. Parsing searches
    the string for the first `<prefix>-<digit>` and reads the digit run there. */
module References {

  /** Minimum number of digits after the dash. */
  const MinDigits: nat := 6

  const InvoicePrefix: char := 'F'
  const ClientPrefix: char := 'C'

  predicate IsDigit(c: char) {
    '0' <= c <= '9'
  }

  predicate AllDigits(s: string) {
    forall i :: 0 <= i < |s| ==> IsDigit(s[i])
  }

  function DigitChar(d: nat): (c: char)
    requires d < 10
    ensures IsDigit(c)
  {
    ('0' as int + d) as char
  }

  function DigitValue(c: char): nat
    requires IsDigit(c)
  {
    c as int - '0' as int
  }

  function Pow10(k: nat): nat {
    if k == 0 then 1 else 10 * Pow10(k - 1)
  }

  /** `String(n)` for a natural number: decimal digits without leading zeros. */
  function Decimal(n: nat): (s: string)
    ensures |s| >= 1 && AllDigits(s)
    ensures |s| > 1 ==> s[0] != '0'
  {
    if n < 10 then [DigitChar(n)] else Decimal(n / 10) + [DigitChar(n % 10)]
  }

  /** `parseInt(s, 10)` on a string of digits (leading zeros allowed). */
  function DigitsValue(s: string): nat
    requires AllDigits(s)
  {
    if |s| == 0 then 0 else DigitsValue(s[..|s| - 1]) * 10 + DigitValue(s[|s| - 1])
  }

  function Repeat(c: char, k: nat): (r: string)
    ensures |r| == k && forall i :: 0 <= i < k ==> r[i] == c
  {
    if k == 0 then "" else [c] + Repeat(c, k - 1)
  }

  /** `s.padStart(width, fill)`: never truncates. */
  function PadStart(s: string, width: nat, fill: char): (r: string)
    ensures |r| == if |s| >= width then |s| else width
    ensures r == Repeat(fill, |r| - |s|) + s
  {
    if |s| >= width then s else Repeat(fill, width - |s|) + s
  }

  /** The reference that follows sequence number `lastNumber`. */
  function GenerateReference(prefix: char, lastNumber: nat): string
  {
    [prefix, '-'] + PadStart(Decimal(lastNumber + 1), MinDigits, '0')
  }

  function GenerateInvoiceReference(lastNumber: nat): string {
    GenerateReference(InvoicePrefix, lastNumber)
  }

  function GenerateClientReference(lastNumber: nat): string {
    GenerateReference(ClientPrefix, lastNumber)
  }

  /** The longest prefix of `s` made of digits (what the greedy `\d+` takes). */
  function DigitRun(s: string): (r: string)
    ensures |r| <= |s| && r == s[..|r|] && AllDigits(r)
    ensures |r| < |s| ==> !IsDigit(s[|r|])
  {
    if |s| > 0 && IsDigit(s[0]) then [s[0]] + DigitRun(s[1..]) else ""
  }

  /** The pattern `<prefix>-\d` matches `s` at index `i`. */
  predicate MatchAt(s: string, prefix: char, i: int) {
    0 <= i && i + 2 < |s| && s[i] == prefix && s[i + 1] == '-' && IsDigit(s[i + 2])
  }

  /** `ref.match(/<prefix>-(\d+)/)` followed by `parseInt` of the group, or 0 when
      nothing matches. The regular expression is not anchored: the leftmost match
      wins and the whole digit run after it is read. */
  function ParseReference(prefix: char, s: string): nat
    decreases |s|
  {
    if |s| < 3 then 0
    else if MatchAt(s, prefix, 0) then DigitsValue(DigitRun(s[2..]))
    else ParseReference(prefix, s[1..])
  }

  /** Where nothing matches, parsing gives 0. */
  lemma {:induction false} ParseWithoutMatch(prefix: char, s: string)
    requires forall i :: !MatchAt(s, prefix, i)
    ensures ParseReference(prefix, s) == 0
    decreases |s|
  {
    if |s| >= 3 {
      forall i ensures !MatchAt(s[1..], prefix, i) {
        assert MatchAt(s[1..], prefix, i) ==> MatchAt(s, prefix, i + 1);
      }
      ParseWithoutMatch(prefix, s[1..]);
    }
  }

  /** Parsing reads the digit run after the leftmost match. */
  lemma {:induction false} ParseAtFirstMatch(prefix: char, s: string, i: nat)
    requires MatchAt(s, prefix, i)
    requires forall j :: 0 <= j < i ==> !MatchAt(s, prefix, j)
    ensures ParseReference(prefix, s) == DigitsValue(DigitRun(s[i + 2..]))
    decreases |s|
  {
    if i > 0 {
      assert !MatchAt(s, prefix, 0);
      assert MatchAt(s[1..], prefix, i - 1);
      forall j | 0 <= j < i - 1 ensures !MatchAt(s[1..], prefix, j) {
        assert MatchAt(s[1..], prefix, j) ==> MatchAt(s, prefix, j + 1);
      }
      ParseAtFirstMatch(prefix, s[1..], i - 1);
      assert s[1..][i - 1 + 2..] == s[i + 2..];
    }
  }

  function ParseInvoiceReference(ref: string): nat {
    ParseReference(InvoicePrefix, ref)
  }

  function ParseClientReference(ref: string): nat {
    ParseReference(ClientPrefix, ref)
  }

  /** Reading back a decimal gives the number. */
  lemma {:induction false} DecimalValue(n: nat)
    ensures DigitsValue(Decimal(n)) == n
  {
    if n >= 10 {
      var s := Decimal(n);
      assert s[..|s| - 1] == Decimal(n / 10);
      DecimalValue(n / 10);
    }
  }

  lemma {:induction false} ZerosValue(k: nat)
    ensures DigitsValue(Repeat('0', k)) == 0
  {
    if k > 0 {
      var z := Repeat('0', k);
      assert z[..k - 1] == Repeat('0', k - 1);
      ZerosValue(k - 1);
    }
  }

  /** Leading zeros do not change the value `parseInt` reads. */
  lemma {:induction false} LeadingZerosValue(k: nat, s: string)
    requires AllDigits(s)
    ensures AllDigits(Repeat('0', k) + s)
    ensures DigitsValue(Repeat('0', k) + s) == DigitsValue(s)
    decreases |s|
  {
    var t := Repeat('0', k) + s;
    if |s| == 0 {
      assert t == Repeat('0', k);
      ZerosValue(k);
    } else {
      assert t[..|t| - 1] == Repeat('0', k) + s[..|s| - 1];
      LeadingZerosValue(k, s[..|s| - 1]);
    }
  }

  lemma {:induction false} DigitRunOfDigits(s: string)
    requires AllDigits(s)
    ensures DigitRun(s) == s
    decreases |s|
  {
    if |s| > 0 {
      DigitRunOfDigits(s[1..]);
      assert [s[0]] + s[1..] == s;
    }
  }

  /** The characters a generated reference is made of. */
  lemma GeneratedShape(prefix: char, n: nat)
    ensures var g := GenerateReference(prefix, n);
      |g| >= 2 + MinDigits && g[0] == prefix && g[1] == '-' && AllDigits(g[2..])
  {
  }

  /** Parsing a generated reference gives back the next sequence number, for every
      prefix and every natural number. */
  lemma ReferenceRoundTrip(prefix: char, n: nat)
    ensures ParseReference(prefix, GenerateReference(prefix, n)) == n + 1
  {
    var dec := Decimal(n + 1);
    var padded := PadStart(dec, MinDigits, '0');
    var g := GenerateReference(prefix, n);
    assert g[2..] == padded;
    assert MatchAt(g, prefix, 0);
    ParseAtFirstMatch(prefix, g, 0);
    DigitRunOfDigits(padded);
    LeadingZerosValue(|padded| - |dec|, dec);
    DecimalValue(n + 1);
  }

  lemma InvoiceRoundTrip(n: nat)
    ensures ParseInvoiceReference(GenerateInvoiceReference(n)) == n + 1
  {
    ReferenceRoundTrip(InvoicePrefix, n);
  }

  lemma ClientRoundTrip(n: nat)
    ensures ParseClientReference(GenerateClientReference(n)) == n + 1
  {
    ReferenceRoundTrip(ClientPrefix, n);
  }

  /** A string in which the prefix letter never occurs parses to 0. */
  lemma AbsentPrefixParsesZero(prefix: char, s: string)
    requires prefix !in s
    ensures ParseReference(prefix, s) == 0
  {
    assert forall i :: 0 <= i < |s| ==> s[i] != prefix;
    ParseWithoutMatch(prefix, s);
  }

  /** An invoice reference never parses as a client reference and vice versa. */
  lemma PrefixesDoNotCross(n: nat)
    ensures ParseClientReference(GenerateInvoiceReference(n)) == 0
    ensures ParseInvoiceReference(GenerateClientReference(n)) == 0
  {
    GeneratedShape(InvoicePrefix, n);
    GeneratedShape(ClientPrefix, n);
    var f := GenerateInvoiceReference(n);
    var c := GenerateClientReference(n);
    forall i | 2 <= i < |f| ensures f[i] != ClientPrefix { assert f[2..][i - 2] == f[i]; }
    forall i | 2 <= i < |c| ensures c[i] != InvoicePrefix { assert c[2..][i - 2] == c[i]; }
    AbsentPrefixParsesZero(ClientPrefix, f);
    AbsentPrefixParsesZero(InvoicePrefix, c);
  }

  /** A decimal fits in `k` digits exactly when the number is below `10^k`. */
  lemma {:induction false} DecimalLength(m: nat, k: nat)
    requires k >= 1
    ensures |Decimal(m)| <= k <==> m < Pow10(k)
    decreases m
  {
    if m >= 10 {
      if k == 1 {
        assert Pow10(1) == 10;
      } else {
        DecimalLength(m / 10, k - 1);
        assert m / 10 < Pow10(k - 1) <==> m < 10 * Pow10(k - 1);
      }
    } else {
      PowAtLeastTen(k);
    }
  }

  lemma {:induction false} PowAtLeastTen(k: nat)
    requires k >= 1
    ensures Pow10(k) >= 10
  {
    if k > 1 {
      PowAtLeastTen(k - 1);
    }
  }

  /** Generated references are eight characters long up to sequence number
      999999; from then on `padStart` does not truncate and they grow. */
  lemma ReferenceLength(prefix: char, n: nat)
    ensures n <= 999998 ==> |GenerateReference(prefix, n)| == 2 + MinDigits
    ensures n > 999998 ==> |GenerateReference(prefix, n)| > 2 + MinDigits
  {
    assert Pow10(6) == 1000000;
    DecimalLength(n + 1, 6);
  }

  /** Concrete cases: the first references of each kind. */
  lemma GenerateExamples()
    ensures GenerateInvoiceReference(0) == "F-000001"
    ensures GenerateClientReference(0) == "C-000001"
  {
    assert Decimal(1) == "1";
    assert Repeat('0', 5) == "00000";
  }

  /** Leading zeros are ignored: `F-000067` parses to 67. */
  lemma ParseLeadingZerosExample()
    ensures ParseInvoiceReference("F-000067") == 67
  {
    var s := "F-000067";
    assert MatchAt(s, 'F', 0);
    DigitRunOfDigits(s[2..]);
    assert s[2..] == Repeat('0', 4) + "67";
    LeadingZerosValue(4, "67");
    assert "67"[..1] == "6";
  }

  /** A string without `F-<digit>` parses to 0. */
  lemma ParseGarbageExample()
    ensures ParseInvoiceReference("garbage") == 0
  {
    AbsentPrefixParsesZero('F', "garbage");
  }

  /** The search is unanchored and stops at the first non-digit: `xF-12y` gives 12. */
  lemma ParseUnanchoredExample()
    ensures ParseInvoiceReference("xF-12y") == 12
  {
    var t := "xF-12y";
    assert !MatchAt(t, 'F', 0) && MatchAt(t, 'F', 1);
    ParseAtFirstMatch('F', t, 1);
    assert t[3..] == "12y" && "12y"[1..] == "2y" && "2y"[1..] == "y";
    assert DigitRun("y") == "";
    assert DigitRun(t[3..]) == "12";
    assert "12"[..1] == "1";
  }
}

=== FILE: render_agreement.dfy ===
/** What the exported document and the on-screen preview have in common and
    where they part: every section but the sender address and the closing
    lines is the same; the address is regrouped only in the export; the
    service line and the legal disclaimer are placed differently. */
module RenderAgreement {
  import opened Wrappers
  import opened Strings
  import opened Documents
  import opened InvoicePdf
  import opened InvoicePreview

  /** The same invoice shows the same reference block, client, items, totals,
      VAT note, banking column and notes in both, and the same sender lines
      apart from the address. */
  lemma SharedSectionsAgree(inv: InvoiceView, totalHt: real, totalTtc: real)
    ensures var pdf := RenderPdf(inv, totalHt, totalTtc);
      var preview := RenderPreview(inv, totalHt, totalTtc);
      pdf.heading == preview.heading && pdf.client == preview.client
      && pdf.table == preview.table && pdf.totals == preview.totals
      && pdf.vatNote == preview.vatNote && pdf.banking == preview.banking
      && pdf.notes == preview.notes
      && WithoutAddress(pdf.sender) == WithoutAddress(preview.sender)
  {
    SenderLinesShape(inv.sender);
    PreviewSenderShape(inv.sender);
  }

  /** A sender address without commas or surrounding blanks prints the same
      in both. */
  lemma PlainAddressAgrees(sender: Option<Sender>)
    requires sender.Some? && ',' !in sender.value.address
    requires var a := sender.value.address;
      |a| > 0 ==> !IsWhitespace(a[0]) && !IsWhitespace(a[|a| - 1])
    ensures AddressTexts(SenderLines(sender)) == AddressTexts(PreviewSender(sender))
  {
    var a := sender.value.address;
    SenderLinesShape(sender);
    PreviewSenderShape(sender);
    GroupAddressWithoutComma(a);
    TrimKeepsTrimmed(a);
  }

  /** Whatever the address, the export's lines re-joined with ", " give the
      comma-separated parts of the preview's single line, each trimmed. */
  lemma AddressLinesRejoin(sender: Option<Sender>)
    requires sender.Some? && sender.value.address != ""
    ensures AddressTexts(PreviewSender(sender)) == [sender.value.address]
    ensures Join(AddressTexts(SenderLines(sender)), ", ") == Join(AddressParts(sender.value.address), ", ")
  {
    SenderLinesShape(sender);
    PreviewSenderShape(sender);
    GroupAddressShape(sender.value.address);
  }

  lemma SplitExample()
    ensures Split("a,b", ',') == ["a", "b"]
  {
    assert "a,b"[1..] == ",b" && ",b"[1..] == "b";
    SplitWithoutSeparator("b", ',');
    var rest := Split(",b", ',');
    assert rest == ["", "b"];
    assert ['a'] + rest[0] == "a" && rest[1..] == ["b"];
  }

  /** "a,b" is printed "a, b" by the export, where the preview prints "a,b". */
  lemma AddressDiffersExample()
    ensures GroupAddress("a,b") == ["a, b"]
  {
    SplitExample();
    assert !IsWhitespace('a') && !IsWhitespace('b');
    TrimKeepsTrimmed("a");
    TrimKeepsTrimmed("b");
    var raw := Split("a,b", ',');
    assert raw[0] == "a" && raw[1] == "b" && |raw| == 2;
    var parts := AddressParts("a,b");
    assert |parts| == 2 && parts[0] == Trim(raw[0]) && parts[1] == Trim(raw[1]);
    assert parts == ["a", "b"];
    assert ["a", "b"][..2] == ["a", "b"] && ["a", "b"][1..] == ["b"];
    assert Join(["a", "b"], ", ") == "a, b";
  }

  /** The narrow no-break space after a comma is trimmed like any other
      space: "a,\u202Fb" is printed "a, b" by the export. */
  lemma NarrowSpaceTrimmedExample()
    ensures GroupAddress("a,\U{202F}b") == ["a, b"]
  {
    NarrowSpaceParts();
    assert ["a", "b"][..2] == ["a", "b"] && ["a", "b"][1..] == ["b"];
    assert Join(["a", "b"], ", ") == "a, b";
  }

  lemma NarrowSpaceParts()
    ensures AddressParts("a,\U{202F}b") == ["a", "b"]
  {
    var raw := NarrowSpaceSplit();
    TrimKeepsTrimmed("a");
    NarrowSpaceTrim();
    PartsOfTwo("a,\U{202F}b", "a", "\U{202F}b");
  }

  /** An address that splits into two raw parts has those two parts, trimmed. */
  lemma PartsOfTwo(address: string, x: string, y: string)
    requires Split(address, ',') == [x, y]
    ensures AddressParts(address) == [Trim(x), Trim(y)]
  {
  }

  lemma NarrowSpaceSplit() returns (raw: seq<string>)
    ensures raw == Split("a,\U{202F}b", ',') == ["a", "\U{202F}b"]
  {
    var a := "a,\U{202F}b";
    assert a[1..] == ",\U{202F}b" && ",\U{202F}b"[1..] == "\U{202F}b";
    SplitWithoutSeparator("\U{202F}b", ',');
    var rest := Split(",\U{202F}b", ',');
    assert rest == ["", "\U{202F}b"];
    assert ['a'] + rest[0] == "a" && rest[1..] == ["\U{202F}b"];
    raw := Split(a, ',');
  }

  lemma NarrowSpaceTrim()
    ensures Trim("\U{202F}b") == "b"
  {
    assert IsWhitespace('\U{202F}') && !IsWhitespace('b');
    assert "\U{202F}b"[1..] == "b";
    assert TrimStart("b") == "b";
    assert TrimStart("\U{202F}b") == "b";
    assert TrimEnd("b") == "b";
  }

  /** The export ends with the legal disclaimer and prints the service line
      right after the payment terms; the preview ends with the service line,
      after the notes, and has no disclaimer at all. */
  lemma ClosingLinesDiffer(inv: InvoiceView, totalHt: real, totalTtc: real)
    ensures var pdf := Lines(RenderPdf(inv, totalHt, totalTtc));
      |pdf| >= 2 && pdf[|pdf| - 2..] == LegalDisclaimer()
    ensures var preview := Lines(RenderPreview(inv, totalHt, totalTtc));
      |preview| >= 1 && preview[|preview| - 1] == ServiceFooter
    ensures RenderPdf(inv, totalHt, totalTtc).payment
            == RenderPreview(inv, totalHt, totalTtc).payment + [ServiceFooter]
    ensures CountRole(Lines(RenderPdf(inv, totalHt, totalTtc)), Legal) == 2
    ensures CountRole(Lines(RenderPreview(inv, totalHt, totalTtc)), Legal) == 0
  {
    PdfSpecialLines(inv, totalHt, totalTtc);
    PreviewSpecialLines(inv, totalHt, totalTtc);
  }

  /** Both show the same TTC amount on the same two lines. */
  lemma TtcAgrees(inv: InvoiceView, totalHt: real, totalTtc: real)
    ensures CountRole(Lines(RenderPdf(inv, totalHt, totalTtc)), Ttc)
            == CountRole(Lines(RenderPreview(inv, totalHt, totalTtc)), Ttc) == 2
  {
    PdfSpecialLines(inv, totalHt, totalTtc);
    PreviewSpecialLines(inv, totalHt, totalTtc);
  }
}

=== FILE: sections.dfy ===
/** The sections the exported document and the on-screen preview lay out
    with the same markup: the reference block, the client block, the item
    table, the totals, the VAT exemption note, the banking column and the
    notes. */
module Sections {
  import opened Wrappers
  import opened LineItems
  import opened Documents

  function HeadingLines(inv: InvoiceView): (r: seq<Line>)
    ensures ShowsHeading(r, inv)
  {
    [Title, ReferenceLine(inv.reference), VersionLine(inv.version), InvoiceDateLine(inv.invoiceDate)]
    + When(inv.clientReference != "", ClientReferenceLine(inv.clientReference))
  }

  function ClientLines(client: Option<ClientInfo>): (r: seq<Line>)
    ensures ShowsClient(r, client)
  {
    match client
    case None => []
    case Some(c) => [ClientName(c.name)] + When(c.address != "", ClientAddress(c.address))
  }

  function TableLines(items: seq<Item>): (r: seq<Line>)
    ensures ShowsItems(r, items)
  {
    [TableHeader]
    + seq(|items|, i requires 0 <= i < |items| =>
        ItemRow(items[i].description, OptionalText(items[i].additionalInfo),
                items[i].unitPriceHt, items[i].quantity, items[i].totalHt))
  }

  function TotalsLines(vatApplicable: bool, totalHt: real, totalTtc: real): (r: seq<Line>)
    ensures ShowsTotals(r, vatApplicable, totalHt, totalTtc)
  {
    [TotalHtLine(totalHt)]
    + When(vatApplicable, VatLine(totalTtc - totalHt))
    + [TotalTtcLine(totalTtc), AmountDueLine(totalTtc)]
  }

  /** The banking column: its title, then each non-empty bank field. */
  function BankingLines(banking: Option<Banking>): (r: seq<Line>)
  {
    match banking
    case None => [BankingTitle]
    case Some(b) =>
      [BankingTitle]
      + When(b.bankName != "", BankName(b.bankName))
      + When(b.rib != "", Rib(b.rib))
      + When(b.iban != "", Iban(b.iban))
      + When(b.bic != "", Bic(b.bic))
  }

  /** The bank fields of a sender's details come out in column order, each
      non-empty one present. */
  lemma BankingFieldsShown(b: Banking)
    ensures var lines := BankingLines(Some(b));
      |lines| >= 1 && lines[0] == BankingTitle && InBankingOrder(lines)
      && (forall i :: 1 <= i < |lines| ==> IsBankField(lines[i], b))
      && (b.bankName != "" ==> BankName(b.bankName) in lines)
      && (b.rib != "" ==> Rib(b.rib) in lines)
      && (b.iban != "" ==> Iban(b.iban) in lines)
      && (b.bic != "" ==> Bic(b.bic) in lines)
  {
    var l0 := [BankingTitle];
    var l1 := ExtendBanking(l0, b.bankName != "", BankName(b.bankName), b);
    var l2 := ExtendBanking(l1, b.rib != "", Rib(b.rib), b);
    var l3 := ExtendBanking(l2, b.iban != "", Iban(b.iban), b);
    var l4 := ExtendBanking(l3, b.bic != "", Bic(b.bic), b);
    assert l1 <= l4 && l2 <= l4 && l3 <= l4;
    assert BankingLines(Some(b)) == l4;
  }

  lemma BankingLinesShape(banking: Option<Banking>)
    ensures ShowsBanking(BankingLines(banking), banking)
  {
    if banking.Some? {
      BankingFieldsShown(banking.value);
      NoEmptyBankField(BankingLines(banking), banking.value);
    }
  }

  function VatNoteLines(vatApplicable: bool, vatArticle: string): (r: seq<Line>)
    ensures ShowsVatNote(r, vatApplicable, vatArticle)
  {
    When(!vatApplicable && vatArticle != "", VatExemption(vatArticle))
  }

  function NotesLines(notes: string): (r: seq<Line>)
    ensures ShowsNotes(r, notes)
  {
    When(notes != "", NotesLine(notes))
  }

  // ---------------------------------------------------------------------
  // These sections hold neither a TTC line nor a disclaimer

  lemma TableIsBody(items: seq<Item>)
    ensures AllBody(TableLines(items))
  {
    var r := TableLines(items);
    forall i | 0 <= i < |r| ensures RoleOf(r[i]) == Body {
      if i >= 1 {
        assert r[(i - 1) + 1].ItemRow?;
      }
    }
  }

  lemma BankingIsBody(banking: Option<Banking>)
    ensures AllBody(BankingLines(banking))
  {
    if banking.Some? {
      var b := banking.value;
      var title := [BankingTitle];
      var name := When(b.bankName != "", BankName(b.bankName));
      WhenIsBody(b.bankName != "", BankName(b.bankName));
      WhenIsBody(b.rib != "", Rib(b.rib));
      WhenIsBody(b.iban != "", Iban(b.iban));
      WhenIsBody(b.bic != "", Bic(b.bic));
      AppendBody(title, name);
      FourBody(title + name, When(b.rib != "", Rib(b.rib)), When(b.iban != "", Iban(b.iban)),
               When(b.bic != "", Bic(b.bic)));
    }
  }

  lemma SmallSectionsAreBody(inv: InvoiceView)
    ensures AllBody(HeadingLines(inv))
    ensures AllBody(ClientLines(inv.client))
    ensures AllBody(VatNoteLines(inv.vatApplicable, inv.vatArticle))
    ensures AllBody(NotesLines(inv.notes))
  {
  }
}

=== FILE: status_toggle.dfy ===
/** The status buttons of an invoice page and the message shown once a
    status change has been accepted. */
module StatusToggle {
  import opened InvoiceStatus

  /** A button of the menu, named after the status it asks for. */
  datatype Action = MarkPaid | MarkUnpaid | MarkSent

  /** The status each button sends. */
  function Requested(a: Action): (s: string)
    ensures s != ""
  {
    match a
    case MarkPaid => Paid
    case MarkUnpaid => "unpaid"
    case MarkSent => Sent
  }

  /** The buttons shown, left to right, for the invoice's current status. */
  function OfferedActions(currentStatus: string): (r: seq<Action>)
    ensures MarkPaid in r <==> currentStatus != Paid
    ensures MarkUnpaid in r <==> currentStatus == Paid
    ensures MarkSent in r <==> currentStatus == Draft
    ensures |r| > 0
  {
    (if currentStatus != Paid then [MarkPaid] else [])
    + (if currentStatus == Paid then [MarkUnpaid] else [])
    + (if currentStatus == Draft then [MarkSent] else [])
  }

  /** The menus there are: a paid invoice can only be marked unpaid, a draft
      can be marked paid or sent, any other invoice can be marked paid. */
  lemma OfferedMenus(currentStatus: string)
    ensures currentStatus == Paid ==> OfferedActions(currentStatus) == [MarkUnpaid]
    ensures currentStatus == Draft ==> OfferedActions(currentStatus) == [MarkPaid, MarkSent]
    ensures currentStatus != Paid && currentStatus != Draft ==> OfferedActions(currentStatus) == [MarkPaid]
  {
  }

  /** Exactly one of "mark as paid" and "mark as unpaid" is on offer, and no
      button is offered twice. */
  lemma PaidUnpaidExclusive(currentStatus: string)
    ensures (MarkPaid in OfferedActions(currentStatus)) != (MarkUnpaid in OfferedActions(currentStatus))
    ensures var r := OfferedActions(currentStatus);
      forall i, j :: 0 <= i < j < |r| ==> r[i] != r[j]
  {
    OfferedMenus(currentStatus);
  }

  /** The label map of the success message. */
  const StatusLabels: map<string, string> :=
    map["paid" := "paid", "unpaid" := "unpaid", "sent" := "sent", "draft" := "draft"]

  /** `statusLabels[newStatus] || newStatus`: the label when there is a
      non-empty one, the status itself otherwise. The map is the identity on
      its keys, so the label is always the status. */
  function Label(newStatus: string): (shown: string)
    ensures shown == newStatus
  {
    if newStatus in StatusLabels && StatusLabels[newStatus] != "" then StatusLabels[newStatus]
    else newStatus
  }

  /** The toast shown after a successful change: it names the status that was sent. */
  function SuccessMessage(newStatus: string): (msg: string)
    ensures msg == "Invoice marked as " + newStatus
  {
    "Invoice marked as " + Label(newStatus)
  }

  /** What each button reports once the change has gone through. */
  lemma ActionMessages()
    ensures SuccessMessage(Requested(MarkPaid)) == "Invoice marked as paid"
    ensures SuccessMessage(Requested(MarkUnpaid)) == "Invoice marked as unpaid"
    ensures SuccessMessage(Requested(MarkSent)) == "Invoice marked as sent"
  {
  }
}

=== FILE: strings.dfy ===
/** String helpers shared by the models: the parts of JavaScript's `trim`,
    `split`, `join`, `toLowerCase` and `includes` that the application uses.
    Strings are sequences of characters; lower-casing is the ASCII mapping. */
module Strings {

  /** The characters `String.prototype.trim` removes: the white space of
      ECMAScript (tab, vertical tab, form feed, space, no-break space, the
      byte-order mark and the other space separators of Unicode) and its line
      terminators (line feed, carriage return, line and paragraph separators). */
  predicate IsWhitespace(c: char) {
    var n := c as int;
    (0x09 <= n <= 0x0D) || n == 0x20 || n == 0xA0 || n == 0x1680 || (0x2000 <= n <= 0x200A)
    || n == 0x2028 || n == 0x2029 || n == 0x202F || n == 0x205F || n == 0x3000 || n == 0xFEFF
  }

  /** All characters of `s` are whitespace (also true of the empty string). */
  predicate IsBlank(s: string) {
    forall i :: 0 <= i < |s| ==> IsWhitespace(s[i])
  }

  /** Drops leading whitespace. */
  function TrimStart(s: string): (r: string)
    ensures |r| <= |s| && r == s[|s| - |r|..]
    ensures |r| > 0 ==> !IsWhitespace(r[0])
    ensures forall i :: 0 <= i < |s| - |r| ==> IsWhitespace(s[i])
  {
    if |s| > 0 && IsWhitespace(s[0]) then TrimStart(s[1..]) else s
  }

  /** Drops trailing whitespace. */
  function TrimEnd(s: string): (r: string)
    ensures |r| <= |s| && r == s[..|r|]
    ensures |r| > 0 ==> !IsWhitespace(r[|r| - 1])
    ensures forall i :: |r| <= i < |s| ==> IsWhitespace(s[i])
  {
    if |s| > 0 && IsWhitespace(s[|s| - 1]) then TrimEnd(s[..|s| - 1]) else s
  }

  /** `s.trim()`: the longest infix of `s` that neither starts nor ends with
      whitespace; everything cut off on either side is whitespace. */
  function Trim(s: string): (r: string)
    ensures |r| <= |s|
    ensures exists i :: 0 <= i && i + |r| <= |s| && r == s[i..i + |r|]
                        && IsBlank(s[..i]) && IsBlank(s[i + |r|..])
    ensures |r| > 0 ==> !IsWhitespace(r[0]) && !IsWhitespace(r[|r| - 1])
    ensures r == "" <==> IsBlank(s)
  {
    var t := TrimStart(s);
    var r := TrimEnd(t);
    TrimIsInfix(s, t, r);
    r
  }

  /** Cutting whitespace from the front of `s` (leaving `t`) and then from the
      back of `t` (leaving `r`) keeps an infix of `s` with only whitespace
      around it, and keeps nothing exactly when `s` is blank. */
  lemma TrimIsInfix(s: string, t: string, r: string)
    requires |t| <= |s| && t == s[|s| - |t|..]
    requires |t| > 0 ==> !IsWhitespace(t[0])
    requires forall k :: 0 <= k < |s| - |t| ==> IsWhitespace(s[k])
    requires |r| <= |t| && r == t[..|r|]
    requires |r| > 0 ==> !IsWhitespace(r[|r| - 1])
    requires forall k :: |r| <= k < |t| ==> IsWhitespace(t[k])
    ensures var i := |s| - |t|;
      r == s[i..i + |r|] && IsBlank(s[..i]) && IsBlank(s[i + |r|..])
    ensures r == "" <==> IsBlank(s)
  {
    var i := |s| - |t|;
    var before := s[..i];
    var after := s[i + |r|..];
    forall k | 0 <= k < |before| ensures IsWhitespace(before[k]) {
      assert before[k] == s[k];
    }
    forall k | 0 <= k < |after| ensures IsWhitespace(after[k]) {
      assert after[k] == t[|r| + k];
    }
    if r == "" {
      assert t == "";
      assert s == before;
    } else {
      assert r[0] == s[i];
    }
  }

  /** Trimming a string that already has no whitespace at either end changes nothing. */
  lemma TrimKeepsTrimmed(s: string)
    requires |s| > 0 ==> !IsWhitespace(s[0]) && !IsWhitespace(s[|s| - 1])
    ensures Trim(s) == s
  {
  }

  /** One whitespace character in front of an already trimmed, non-empty
      text is all that trimming removes. */
  lemma TrimDropsLeadingBlank(c: char, x: string)
    requires IsWhitespace(c)
    requires |x| > 0 && !IsWhitespace(x[0]) && !IsWhitespace(x[|x| - 1])
    ensures Trim([c] + x) == x
  {
    assert ([c] + x)[1..] == x;
    assert TrimStart(x) == x;
    assert TrimStart([c] + x) == x;
    assert TrimEnd(x) == x;
  }

  /** `parts.join(sep)`. */
  function Join(parts: seq<string>, sep: string): string
  {
    if |parts| == 0 then ""
    else if |parts| == 1 then parts[0]
    else parts[0] + sep + Join(parts[1..], sep)
  }

  /** Number of occurrences of `c` in `s`. */
  function Occurrences(s: string, c: char): nat
  {
    if |s| == 0 then 0 else (if s[0] == c then 1 else 0) + Occurrences(s[1..], c)
  }

  /** `s.split(sep)` for a one-character separator: there is always at least one
      part, one more than there are separators, and no part holds a separator. */
  function Split(s: string, sep: char): (parts: seq<string>)
    ensures |parts| == Occurrences(s, sep) + 1
    ensures forall k :: 0 <= k < |parts| ==> sep !in parts[k]
    decreases |s|
  {
    if |s| == 0 then [""]
    else
      var rest := Split(s[1..], sep);
      if s[0] == sep then [""] + rest
      else [[s[0]] + rest[0]] + rest[1..]
  }

  /** Splitting and re-joining with the same separator gives back the string. */
  lemma {:induction false} SplitJoin(s: string, sep: char)
    ensures Join(Split(s, sep), [sep]) == s
    decreases |s|
  {
    if |s| > 0 {
      var rest := Split(s[1..], sep);
      SplitJoin(s[1..], sep);
      if s[0] == sep {
        assert Split(s, sep) == [""] + rest;
        assert ([""] + rest)[1..] == rest;
      } else {
        var parts := [[s[0]] + rest[0]] + rest[1..];
        assert Split(s, sep) == parts;
        if |rest| == 1 {
          assert Join(parts, [sep]) == [s[0]] + rest[0];
        } else {
          assert parts[1..] == rest[1..];
          assert Join(parts, [sep]) == [s[0]] + (rest[0] + [sep] + Join(rest[1..], [sep]));
        }
        assert [s[0]] + s[1..] == s;
      }
    }
  }

  /** The text up to the first separator is the first part; the rest splits
      on its own. */
  lemma {:induction false} SplitAtFirst(x: string, sep: char, y: string)
    requires sep !in x
    ensures Split(x + [sep] + y, sep) == [x] + Split(y, sep)
    decreases |x|
  {
    var s := x + [sep] + y;
    if |x| == 0 {
      assert s[0] == sep && s[1..] == y;
    } else {
      assert s[0] == x[0] && s[1..] == x[1..] + [sep] + y;
      assert sep !in x[1..] by {
        forall i | 0 <= i < |x[1..]| ensures x[1..][i] != sep {
          assert x[1..][i] == x[i + 1];
        }
      }
      SplitAtFirst(x[1..], sep, y);
      var rest := Split(s[1..], sep);
      assert rest[0] == x[1..] && rest[1..] == Split(y, sep);
      assert [x[0]] + x[1..] == x;
    }
  }

  /** A string without the separator splits into itself alone. */
  lemma SplitWithoutSeparator(s: string, sep: char)
    requires sep !in s
    ensures Split(s, sep) == [s]
  {
    var parts := Split(s, sep);
    SplitJoin(s, sep);
    OccurrencesAbsent(s, sep);
    assert |parts| == 1;
  }

  lemma {:induction false} OccurrencesAbsent(s: string, c: char)
    requires c !in s
    ensures Occurrences(s, c) == 0
    decreases |s|
  {
    if |s| > 0 {
      assert s[1..] <= s[1..];
      assert forall i :: 0 <= i < |s[1..]| ==> s[1..][i] == s[i + 1];
      assert c !in s[1..];
      OccurrencesAbsent(s[1..], c);
    }
  }

  /** `toLowerCase` restricted to ASCII letters. */
  function LowerChar(c: char): char
  {
    if 'A' <= c <= 'Z' then (c as int + 32) as char else c
  }

  function Lower(s: string): (r: string)
    ensures |r| == |s|
    ensures forall i :: 0 <= i < |s| ==> r[i] == LowerChar(s[i])
  {
    seq(|s|, i requires 0 <= i < |s| => LowerChar(s[i]))
  }

  /** Lower-casing is idempotent. */
  lemma LowerIdempotent(s: string)
    ensures Lower(Lower(s)) == Lower(s)
  {
  }

  predicate IsPrefix(p: string, s: string)
  {
    |p| <= |s| && s[..|p|] == p
  }

  /** `s.includes(sub)`, as a left-to-right search. */
  predicate Contains(s: string, sub: string)
    decreases |s|
  {
    IsPrefix(sub, s) || (|s| > 0 && Contains(s[1..], sub))
  }

  /** `sub` occurs in `s` starting at index `i`. */
  predicate OccursAt(s: string, sub: string, i: int)
  {
    0 <= i && i + |sub| <= |s| && s[i..i + |sub|] == sub
  }

  /** The search finds `sub` exactly when it occurs at some position. */
  lemma {:induction false} ContainsIff(s: string, sub: string)
    ensures Contains(s, sub) <==> exists i :: OccursAt(s, sub, i)
    decreases |s|
  {
    if |s| > 0 {
      ContainsIff(s[1..], sub);
      if Contains(s[1..], sub) {
        var i :| OccursAt(s[1..], sub, i);
        assert s[1..][i..i + |sub|] == s[i + 1..i + 1 + |sub|];
        assert OccursAt(s, sub, i + 1);
      }
      if IsPrefix(sub, s) {
        assert OccursAt(s, sub, 0);
      }
      if i :| OccursAt(s, sub, i) {
        if i > 0 {
          assert s[1..][i - 1..i - 1 + |sub|] == s[i..i + |sub|];
          assert OccursAt(s[1..], sub, i - 1);
        } else {
          assert IsPrefix(sub, s);
        }
      }
    } else {
      if IsPrefix(sub, s) {
        assert OccursAt(s, sub, 0);
      }
      if i :| OccursAt(s, sub, i) {
        assert IsPrefix(sub, s);
      }
    }
  }

  /** Every string contains the empty string. */
  lemma ContainsEmpty(s: string)
    ensures Contains(s, "")
  {
    assert IsPrefix("", s);
  }

  /** Containment is transitive. */
  lemma ContainsTransitive(a: string, b: string, c: string)
    requires Contains(c, b) && Contains(b, a)
    ensures Contains(c, a)
  {
    ContainsIff(c, b);
    ContainsIff(b, a);
    var i :| OccursAt(c, b, i);
    var j :| OccursAt(b, a, j);
    assert forall k :: 0 <= k < |a| ==> c[i + j + k] == b[j + k] == a[k];
    assert OccursAt(c, a, i + j);
    ContainsIff(c, a);
  }

  /** Lower-casing both sides preserves containment. */
  lemma LowerPreservesContains(s: string, sub: string)
    requires Contains(s, sub)
    ensures Contains(Lower(s), Lower(sub))
  {
    ContainsIff(s, sub);
    var i :| OccursAt(s, sub, i);
    assert Lower(s)[i..i + |sub|] == Lower(sub);
    assert OccursAt(Lower(s), Lower(sub), i);
    ContainsIff(Lower(s), Lower(sub));
  }
}

=== FILE: wrappers.dfy ===
/** Optional values: an absent JavaScript object (`undefined`/`null`) is `None`. */
module Wrappers {

  datatype Option<+T> = None | Some(value: T) {

    /** The value, or a default when absent. */
    function GetOr(default: T): T {
      match this
      case Some(v) => v
      case None => default
    }
  }
}
